=== FILE: README.md ===
# Custom scrollbar slider, modelled in Dafny

`CustomScrollbar` is a Tkinter widget: a diamond-shaped slider moves along a
trough canvas. It can be stepped left or right by buttons, or jumped to a
clicked point. After every move it reports the slider's position ratio, in
two ways: it writes the ratio to a bound control variable and passes it to a
`command` callback. This project models the widget's slider logic without
the Tk layer. The model is a sequential state machine with a pure function
per operation, and the project proves properties about those functions.

- `wrappers.dfy`: `Result`, a value or the exception raised.
- `options.dfy` (module `Options`):
  - Python values as the widget sees them: numbers, text, callables and control variables.
  - The exceptions the widget's code raises.
  - The default options, truthiness and `cget`.
- `geometry.dfy` (module `Geometry`):
  - Points and flat coordinate lists, with their conversions.
  - `int()` truncation and Tk pixel rounding.
  - The top vertex, defined as the head of a stable sort by y.
  - The canvas operations `move`, `moveto` and `scale`.
- `widget.dfy` (module `Widget`):
  - The state `Scrollbar(options, canvasWidth, slider, log)`.
  - The operations:
    - construction, which returns a `Result`: the new widget or the exception raised;
    - `_expose_slider_position_ratio` and `_exec_command`;
    - `_move_slider` and the button presses;
    - `move_slider_to`, `cget` and `config`.
  - `cget` only reads, and returns a `Result` too. Every other operation on an existing widget returns an `Outcome`: the state afterwards and either a value or the exception raised. Effects that happen before an exception are kept.
- `properties.dfy` (module `Properties`): lemmas and methods that relate several calls or quantify over all inputs.

The log records each `command` call and each control-variable write, with the
ratio it carried. "Called exactly once" and "written to which variable" are
statements about this log.

Coordinates are exact reals.

`canvasWidth` is the canvas's own width in whole pixels. The right-step clamp
reads it, and `config` changes it before the division that may raise.

Behaviours of the code worth knowing:
- The class docstring says the step size defaults to 1% of the trough width and "can be overridden" (`custom_scrollbar_widget.py:12`). At construction, though, a `resolution` passed by the caller is always overwritten with 1% of the width (`custom_scrollbar_widget.py:34`); only a later `config` can change it.
- `config` never recomputes `resolution`, not even when the width changes.
- `move_slider_to` does not clamp. It places the slider's left extent at `int(x - length/2)`, so the top vertex is within one pixel of `x`. It is not exactly centred on `x`.
- A new `variable` is not written on `config`. The ratio goes to the variable stored before the call, because the new one is committed only at the end (`custom_scrollbar_widget.py:190`).
- The order of the keyword arguments matters. A `config` call that changes the width before binding a new variable moves the slider first and then writes the new top x divided by the OLD width to the old variable, since the new width is also committed only at the end; in the other order the old ratio is written (`ConfigWidthThenVariable`, `ConfigVariableThenWidth`).

## Model

| member | source | states |
|---|---|---|
| Options.DefaultsHaveDefaultKeys | custom_scrollbar_widget.py:30-31 | the default options are exactly the seven named options |
| Options.DefaultValues | custom_scrollbar_widget.py:30-31 | defaults: width 300, height 25, resolution 3, a callable no-op command, no variable |
| Geometry.Trunc | custom_scrollbar_widget.py:129 | `int()` truncates toward zero: the result is within one unit of the input, on the side of zero |
| Geometry.Pixels | custom_scrollbar_widget.py:112 | the canvas width read back as whole pixels is within half a pixel of the configured width; whole widths are exact |
| Geometry.CoordsToPoints | custom_scrollbar_widget.py:71-74 | point i is (c[2i], c[2i+1]); an odd trailing coordinate is dropped |
| Geometry.PointsToCoords | custom_scrollbar_widget.py:76-81 | the flat list has x of point i at 2i and y at 2i+1 |
| Geometry.PointsCoordsRoundTrip | custom_scrollbar_widget.py:71-81 | flattening points and pairing them again gives the same points |
| Geometry.CoordsPointsRoundTrip | custom_scrollbar_widget.py:71-81 | pairing a coordinate list and flattening it again gives the list without its unpaired last element |
| Geometry.EvenPositions | custom_scrollbar_widget.py:126 | the `[0::2]` slice: element i is the input's element 2i |
| Geometry.SliderXs | custom_scrollbar_widget.py:126 | `coords[0:7:2]` of a four-vertex slider is exactly the x of each vertex |
| Geometry.Min | custom_scrollbar_widget.py:127 | the result is a member that no member is below |
| Geometry.Max | custom_scrollbar_widget.py:127 | the result is a member that no member is above |
| Geometry.TopIndex | custom_scrollbar_widget.py:83-87 | the index of a vertex with least y, before which every vertex is strictly lower |
| Geometry.InsertByY | custom_scrollbar_widget.py:86 | insertion adds exactly the new point (as a multiset); the new point comes first exactly when its y is at most the old head's |
| Geometry.InsertKeepsSorted | custom_scrollbar_widget.py:86 | inserting into a y-sorted sequence keeps it y-sorted |
| Geometry.SortByY | custom_scrollbar_widget.py:86 | `sorted(key=y)` is a permutation of its input and is ordered by y |
| Geometry.SortHeadIsTopIndex | custom_scrollbar_widget.py:86-87 | the head of the stable sort is the first vertex of least y |
| Geometry.TopPoint | custom_scrollbar_widget.py:83-87 | the top vertex is the head of the vertices sorted stably by y; it is one of the vertices and no vertex is above it |
| Geometry.TranslateExtremes | custom_scrollbar_widget.py:107 | Tk `move` by (dx, dy) shifts the leftmost and rightmost x by dx and the least y by dy |
| Geometry.ScaleAboutTop | custom_scrollbar_widget.py:174-176 | scaling about the top vertex by r ≥ 0 keeps that vertex on top and in place, and scales the leftmost and rightmost x by r about its x |
| Geometry.MoveTo | custom_scrollbar_widget.py:129 | after the abstracted `moveto`, the least x and least y of the vertices are the target, and every vertex moved by the same amount |
| Geometry.TopUnderTranslate | custom_scrollbar_widget.py:104-115 | a move keeps the same vertex on top, shifted by the move |
| Geometry.TopUnderScale | custom_scrollbar_widget.py:174-176 | scaling about the top vertex by a non-negative ratio leaves the top vertex where it was |
| Geometry.TranslateKeepsCentred | custom_scrollbar_widget.py:107-115 | a move keeps the top vertex midway between the extents |
| Geometry.ScaleKeepsCentred | custom_scrollbar_widget.py:174-176 | scaling about the top vertex by a non-negative ratio keeps it midway between the extents |
| Widget.DiamondTop | custom_scrollbar_widget.py:66-67 | the diamond's top vertex is (0, 0) for a non-negative height, and (0, h) for a negative one |
| Widget.DiamondExtremes | custom_scrollbar_widget.py:66-67 | the diamond spans a quarter of the height's magnitude to each side of x = 0 |
| Widget.InitialSlider | custom_scrollbar_widget.py:61-69 | a new slider has its top vertex at x = 0, is centred on it, and is half the height's magnitude wide |
| Widget.New | custom_scrollbar_widget.py:27-34 | construction succeeds iff the merged width and height are numbers; otherwise it raises TypeError (the Tcl error Tk raises for most non-number heights is left out) |
| Widget.Expose | custom_scrollbar_widget.py:89-94 | ratio × stored width = top x. It writes exactly that ratio to a bound variable and skips a false one. It raises ValueError, TypeError, ZeroDivisionError or AttributeError exactly when the width or variable is unusable, and changes nothing then |
| Widget.ExecCommand | custom_scrollbar_widget.py:96-100 | it goes through iff the command is callable and the ratio can be reported; then the log gains the write (if any) and one call, both with the ratio. A missing `command` raises ValueError with nothing changed; a report that raises passes its exception on with nothing changed; a command that is not callable raises TypeError after the variable has been written |
| Widget.ExecCommandCallsOnce | custom_scrollbar_widget.py:96-100 | a report adds exactly one command call when it goes through and none when it raises |
| Widget.Stepped | custom_scrollbar_widget.py:104-115 | left: top x becomes x − d, or exactly 0 if that is negative. right: x + d, or exactly the canvas width if past it. The slider moves rigidly and horizontally |
| Widget.HorizontalShift | custom_scrollbar_widget.py:107 | a horizontal `move` is rigid, keeps every vertex's y, and moves the top vertex by dx |
| Widget.MoveSlider | custom_scrollbar_widget.py:102-117 | options and canvas are kept; top x moves by the step toward its side, stopping at 0 or at the canvas width; it goes through iff the step is a number and the report can be made, and then adds exactly one command call, also at an edge; a non-number step raises TypeError with nothing changed |
| Widget.Step | custom_scrollbar_widget.py:48-52 | a button press keeps options and canvas, moves top x by the stored `resolution` toward its side, stopping at the edge, and adds one call iff it goes through; a missing `resolution` raises ValueError with nothing changed |
| Widget.SliderLength | custom_scrollbar_widget.py:126-127 | the length is the rightmost x less the leftmost x: non-negative, and at least the horizontal distance between any two vertices |
| Widget.Jumped | custom_scrollbar_widget.py:126-129 | after a jump the slider's left extent is at `int(x − length/2)` and its top at y = 0, moved rigidly |
| Widget.MoveSliderTo | custom_scrollbar_widget.py:123-131 | options and canvas are kept; the left extent lands at `int(x − length/2)` and the top at y = 0; it goes through iff x is a number and the report can be made, then adds exactly one call; a non-number raises TypeError with nothing changed |
| Widget.Get | custom_scrollbar_widget.py:133-142 | `cget` on the widget: all options for the empty name, the stored value for a present name, ValueError for an absent one |
| Widget.AsMap | custom_scrollbar_widget.py:147 | the keyword dict holds exactly the given keys, each with its given value |
| Widget.Known | custom_scrollbar_widget.py:147 | the valid entries are exactly the given entries whose key is an existing option; a single entry is kept iff it names one, which with `Properties.KnownAppend` fixes the order: the kept entries keep the call's order |
| Widget.WidthShift | custom_scrollbar_widget.py:167-168 | the shift `(new/old − 1)·x` moves x to x·new/old |
| Widget.Stretch | custom_scrollbar_widget.py:166-169 | after a width change the top vertex keeps its height and its x scales by new/old width, so its fraction of the trough is kept; the move is rigid and horizontal |
| Widget.Rewidth | custom_scrollbar_widget.py:162-169 | the canvas takes the new width first; on success the top vertex keeps its fraction of the trough and its height. A non-number new width raises TypeError before anything changes. A stored width that is not a usable divisor raises with the canvas already resized |
| Widget.Reheight | custom_scrollbar_widget.py:171-176 | the slider scales by new/old about its top vertex, which stays put for a non-negative ratio; non-numbers and a zero old height raise |
| Widget.ConfigureOne | custom_scrollbar_widget.py:149-176 | an unchanged value does nothing. A new variable writes the ratio to the stored variable. A new width goes through iff it is a number and the stored width is usable, and then resizes the canvas and keeps the top vertex's fraction of the trough. A new height goes through iff both heights are numbers and the old is not 0, and keeps the top vertex for a non-negative ratio. Other options have no effect before the commit, and no option changes before the commit |
| Widget.ConfigureEach | custom_scrollbar_widget.py:149-176 | options stay as they were; the log only grows, and only by variable writes |
| Widget.Commit | custom_scrollbar_widget.py:190 | `options.update(valid)`: same key set; each existing key takes its keyword value, if any |
| Widget.Config | custom_scrollbar_widget.py:144-190 | same key set; committed on success and untouched on failure; only variable writes are logged; a call naming no existing option does nothing |
| Properties.NewOptions | custom_scrollbar_widget.py:30-34 | key set = default keys ∪ caller's keys; every option but `resolution` is the caller's, else the default; `resolution` × 100 = width |
| Properties.NewGeometry | custom_scrollbar_widget.py:65-69 | a new slider's top x is 0 and it is centred; nothing is logged; the canvas has the width in pixels |
| Properties.NewRatioIsZero | custom_scrollbar_widget.py:89-94 | a new widget reports the ratio 0 |
| Properties.ExposeAtZero | custom_scrollbar_widget.py:89-94 | a slider with top x 0 reports the ratio 0 |
| Properties.DefaultConstruction | custom_scrollbar_widget.py:30-34 | with no arguments: the defaults, resolution 3, a 300-pixel canvas and the diamond for height 25 |
| Properties.CgetAfterNew | custom_scrollbar_widget.py:133-142 | after construction `cget` answers exactly the default names and the caller's names, and raises ValueError for others |
| Properties.ReportCarriesRatio | custom_scrollbar_widget.py:89-100 | the command's last call carries top x / width, and a bound variable is written the same ratio first |
| Properties.StepStaysInTrough | custom_scrollbar_widget.py:104-115 | after a left press top x ≥ 0, and after a right press top x ≤ canvas width; a non-negative step from inside the trough stays inside |
| Properties.StepKeepsCentred | custom_scrollbar_widget.py:104-115 | a press keeps a centred slider centred |
| Properties.PressOnce | custom_scrollbar_widget.py:102-117 | one press: options and canvas kept; one call iff the press goes through; centring kept; top x clamped-stepped |
| Properties.WalkClosedForm | custom_scrollbar_widget.py:104-115 | n ≥ 1 clamped steps of a positive d end where one clamped move of n·d does |
| Properties.WalkReachesEdge | custom_scrollbar_widget.py:104-115 | enough positive steps reach 0 (left) or the canvas width (right) from any start and stay there |
| Properties.PressRepeatedly | custom_scrollbar_widget.py:102-117 | n presses: options and canvas kept; n calls when every press goes through; centring kept; top x takes n clamped steps |
| Properties.DefaultWidget | custom_scrollbar_widget.py:27-34 | the default widget: top x 0, resolution 3, width 300, reports go through |
| Properties.PressToEdge | custom_scrollbar_widget.py:111-117 | enough presses pin top x to the edge on the button's side, with one call per press |
| Properties.PinRight | custom_scrollbar_widget.py:111-117 | 200 right presses on a default widget end with top x at 300, after 200 calls |
| Properties.JumpKeepsShape | custom_scrollbar_widget.py:126-129 | a jump keeps the slider's length and its centring |
| Properties.JumpLandsNearX | custom_scrollbar_widget.py:126-129 | a centred slider's top x lands within one pixel of the target: below it if the left extent is ≥ 0, above it otherwise |
| Properties.JumpBounds | custom_scrollbar_widget.py:126-129 | after a jump the top x lies between the new left extent and that extent plus the length |
| Properties.JumpDoesNotClamp | custom_scrollbar_widget.py:129 | targets far enough out put top x beyond the canvas width, or below 0 |
| Properties.ConfigNeverCalls | custom_scrollbar_widget.py:144-190 | `config` never calls the command |
| Properties.ConfigIgnoresUnknownKeys | custom_scrollbar_widget.py:147 | `config` with unknown names behaves exactly like `config` with only the valid entries |
| Properties.CommitOnlyKnown | custom_scrollbar_widget.py:190 | committing all entries equals committing only the valid ones |
| Properties.KnownEntry | custom_scrollbar_widget.py:147 | for an existing option, filtering keeps whether it is given and the value it is given |
| Properties.KnownIdempotent | custom_scrollbar_widget.py:147 | filtering the valid entries again changes nothing |
| Properties.ConfigureEachUnchanged | custom_scrollbar_widget.py:151 | entries equal to the stored values have no effect at all |
| Properties.ConfigSameValuesChangesNothing | custom_scrollbar_widget.py:149-151 | `config` with every value equal to the stored one leaves the state unchanged and succeeds |
| Properties.ConfigSingle | custom_scrollbar_widget.py:149-190 | a one-entry `config` is that entry's effect, then the commit of the value unless the effect raised |
| Properties.ConfigWidthKeepsRatio | custom_scrollbar_widget.py:166-169 | a new width keeps top x / width; the canvas takes the new width; only the width option changes, `resolution` included; nothing is logged |
| Properties.ConfigHeightKeepsTop | custom_scrollbar_widget.py:171-176 | a new height keeps the top vertex and centring; only the height option changes; nothing is logged |
| Properties.ConfigKeepsRatio | custom_scrollbar_widget.py:144-190 | a `config` call with any entries that goes through commits a numeric width and keeps the top vertex's height and its x over the committed width; without a width entry the top vertex stays put |
| Properties.ConfigureEachKeepsFraction | custom_scrollbar_widget.py:149-176 | for a usable stored width and height entries with a non-negative ratio, the entries run in order against the options stored before the call and together keep the top vertex's fraction for the width the width entry sets |
| Properties.EntryKeepsFraction | custom_scrollbar_widget.py:149-176 | for a usable stored width and a height entry with a non-negative ratio, one entry that goes through keeps the top vertex's fraction: for its new width if it is a width, else for the stored width |
| Properties.WidthAfterIsEntry | custom_scrollbar_widget.py:147 | with distinct keys, the keyword dict's width is the width of the one width entry, and the stored width when there is none |
| Properties.CommittedWidth | custom_scrollbar_widget.py:190 | for a numeric stored width (zero included) and numeric valid width entries, the width `config` commits is the one the valid width entry sets, or the stored one |
| Properties.FractionRatio | custom_scrollbar_widget.py:166-169 | keeping the fraction from width w1 to w2 keeps top x / width, and for an unchanged width keeps the top vertex |
| Properties.ConfigVariableWritesOldVariable | custom_scrollbar_widget.py:154-155 | binding a new variable writes the ratio to the previously bound variable, then commits the new one |
| Properties.KnownAppend | custom_scrollbar_widget.py:147 | filtering the entries of `a + b` gives the kept entries of `a` followed by those of `b` |
| Properties.ConfigPair | custom_scrollbar_widget.py:149-190 | a two-entry `config` runs the first entry's effect, then the second's against the same stored options, then commits both |
| Properties.ConfigWidthThenVariable | custom_scrollbar_widget.py:149-169 | a width entry followed by a new variable moves the slider first and writes the new top x over the OLD width to the previously bound variable |
| Properties.ConfigVariableThenWidth | custom_scrollbar_widget.py:149-169 | a new variable followed by a width entry writes the old top x over the old width, then moves the slider |
| Properties.ConfigFirstVariableWritesNothing | custom_scrollbar_widget.py:154-155 | binding a variable when none was bound writes nothing |

## Left out

- Tk widget construction, packing, the canvas's colour and highlight options, and the `<Button 1>` binding (`custom_scrollbar_widget.py:37-59`): user-interface plumbing. `_jump_slider_to_mouse_cursor` is `move_slider_to` applied to the event's x.
- Button auto-repeat (`repeatinterval`/`repeatdelay`): driven by timers and the event loop. A held button is modelled as repeated presses (`PressRepeatedly`).
- Colours: stored as opaque values. `itemconfigure` and the canvas background have no effect in the model.
- The font-size loop over `slaves()` and the font-string parsing, and the unused `_slider_length` field (`custom_scrollbar_widget.py:177-188`): they only affect the Tk appearance.
- Tk `moveto`: abstracted as placing the least x and least y of the vertices at the target. The bounding-box outline margin is not modelled.
- Tk's own validation of option values: `config` with a non-number width or height raises TypeError before the canvas changes. This includes a numeric string such as `'600'`, which Tk accepts and resizes the canvas to (`custom_scrollbar_widget.py:163`) before the division at line 168 raises TypeError; in the model the canvas keeps its width. Construction with a non-number height raises TypeError, where Tk would already reject most such values with a Tcl error when the canvas is created (`custom_scrollbar_widget.py:37`). No Tcl error is modelled, at construction or in `config`.
- Floating point: coordinates and ratios are exact reals, so IEEE rounding is not modelled.
- The `command` callback and control variables: known only by identity. The callback's own effects and `.set`'s type conversion (a StringVar stores text) are not modelled. A call or a write is a log entry carrying the ratio.
- `Widget.Config`: keyword arguments are a sequence with distinct keys, matching a Python dict.
- `Widget.Stepped`: the direction is `Left` or `Right`. `_move_slider` also accepts other strings, for which it does not move the slider but still reports.
- `Properties.PressRepeatedly`: the closed form n·d is stated separately, by `WalkClosedForm`, for a positive step.
- `Properties.ConfigHeightKeepsTop`: stated for a non-negative height ratio. A negative ratio mirrors the slider, which can change which vertex is on top.
- `Properties.ConfigKeepsRatio`: stated for calls whose height entries scale by a non-negative ratio, for the same reason, and for a stored width that is a usable divisor.
- `Properties.ConfigureEachKeepsFraction`: stated under the same two conditions, a usable stored width and height entries with a non-negative ratio.
- `Properties.EntryKeepsFraction`: stated under the same two conditions, for the one entry.
- The demonstration application `custom_scrollbar_test_app.py` is not part of this model.

=== FILE: geometry.dfy ===
/** Plane geometry of the slider: points, the flat coordinate lists a Tk canvas
    stores for a polygon, the top vertex, and the canvas operations `move`,
    `moveto` and `scale`. Coordinates are exact reals. */
module Geometry {

  datatype Point = Point(x: real, y: real)

  /** The slider polygon: a diamond, so always exactly four vertices. */
  type Slider = ps: seq<Point> | |ps| == 4
    witness [Point(0.0, 0.0), Point(0.0, 0.0), Point(0.0, 0.0), Point(0.0, 0.0)]

  /** Python's `int()` on a number: truncation toward zero. */
  function Trunc(v: real): (n: int)
    ensures 0.0 <= v ==> n as real <= v < n as real + 1.0
    ensures v < 0.0 ==> n as real - 1.0 < v <= n as real
  {
    if v >= 0.0 then v.Floor else -((-v).Floor)
  }

  /** Tk's conversion of a screen distance to whole pixels, as reported back by
      a canvas's `cget('width')`: rounding half away from zero. */
  function Pixels(v: real): (n: int)
    ensures 0.0 <= v ==> v - 0.5 < n as real <= v + 0.5
    ensures v < 0.0 ==> v - 0.5 <= n as real < v + 0.5
    ensures v == v.Floor as real ==> n == v.Floor
  {
    if v < 0.0 then Trunc(v - 0.5) else Trunc(v + 0.5)
  }

  // ---------------------------------------------------------------------------
  // Coordinate lists and point lists

  /** Pairs up a flat list x0, y0, x1, y1, ... into points; a trailing unpaired
      coordinate is dropped (the `zip(itr, itr)` idiom). */
  function CoordsToPoints(c: seq<real>): (ps: seq<Point>)
    ensures |ps| == |c| / 2
    ensures forall i :: 0 <= i < |ps| ==> ps[i] == Point(c[2 * i], c[2 * i + 1])
  {
    if |c| < 2 then [] else [Point(c[0], c[1])] + CoordsToPoints(c[2..])
  }

  /** Flattens points into x0, y0, x1, y1, ... */
  function PointsToCoords(ps: seq<Point>): (c: seq<real>)
    ensures |c| == 2 * |ps|
    ensures forall i :: 0 <= i < |ps| ==> c[2 * i] == ps[i].x && c[2 * i + 1] == ps[i].y
  {
    if |ps| == 0 then [] else [ps[0].x, ps[0].y] + PointsToCoords(ps[1..])
  }

  lemma {:induction false} PointsCoordsRoundTrip(ps: seq<Point>)
    ensures CoordsToPoints(PointsToCoords(ps)) == ps
  {
    if |ps| > 0 {
      var c := PointsToCoords(ps);
      assert c == [ps[0].x, ps[0].y] + PointsToCoords(ps[1..]);
      assert c[2..] == PointsToCoords(ps[1..]);
      PointsCoordsRoundTrip(ps[1..]);
    }
  }

  lemma {:induction false} CoordsPointsRoundTrip(c: seq<real>)
    ensures PointsToCoords(CoordsToPoints(c)) == c[..|c| - |c| % 2]
  {
    if |c| >= 2 {
      CoordsPointsRoundTrip(c[2..]);
      assert c[2..][..|c[2..]| - |c[2..]| % 2] == c[2..|c| - |c| % 2];
      assert c[..|c| - |c| % 2] == [c[0], c[1]] + c[2..|c| - |c| % 2];
    }
  }

  /** The elements at even positions, in order: Python's `c[0::2]`. */
  function EvenPositions(c: seq<real>): (r: seq<real>)
    ensures |r| == (|c| + 1) / 2
    ensures forall i :: 0 <= i < |r| ==> r[i] == c[2 * i]
  {
    if |c| == 0 then []
    else if |c| == 1 then [c[0]]
    else [c[0]] + EvenPositions(c[2..])
  }

  function Xs(ps: seq<Point>): (xs: seq<real>)
    ensures |xs| == |ps|
    ensures forall i :: 0 <= i < |ps| ==> xs[i] == ps[i].x
  {
    seq(|ps|, i requires 0 <= i < |ps| => ps[i].x)
  }

  function Ys(ps: seq<Point>): (ys: seq<real>)
    ensures |ys| == |ps|
    ensures forall i :: 0 <= i < |ps| ==> ys[i] == ps[i].y
  {
    seq(|ps|, i requires 0 <= i < |ps| => ps[i].y)
  }

  /** The slider's x coordinates as the widget reads them, `coords[0:7:2]` of
      its flat coordinate list: exactly the x of each of the four vertices. */
  function SliderXs(ps: Slider): (xs: seq<real>)
    ensures xs == Xs(ps)
  {
    EvenPositions(PointsToCoords(ps)[..7])
  }

  // ---------------------------------------------------------------------------
  // Extremes

  function Min(xs: seq<real>): (m: real)
    requires |xs| > 0
    ensures m in xs
    ensures forall i :: 0 <= i < |xs| ==> m <= xs[i]
  {
    if |xs| == 1 then xs[0]
    else
      var rest := Min(xs[1..]);
      if xs[0] <= rest then xs[0] else rest
  }

  function Max(xs: seq<real>): (m: real)
    requires |xs| > 0
    ensures m in xs
    ensures forall i :: 0 <= i < |xs| ==> xs[i] <= m
  {
    if |xs| == 1 then xs[0]
    else
      var rest := Max(xs[1..]);
      if xs[0] >= rest then xs[0] else rest
  }

  /** A member of `xs` that is below or equal to every member is the minimum. */
  lemma MinUnique(xs: seq<real>, m: real)
    requires m in xs
    requires forall i :: 0 <= i < |xs| ==> m <= xs[i]
    ensures Min(xs) == m
  {
  }

  lemma MaxUnique(xs: seq<real>, m: real)
    requires m in xs
    requires forall i :: 0 <= i < |xs| ==> xs[i] <= m
    ensures Max(xs) == m
  {
  }

  // ---------------------------------------------------------------------------
  // The top vertex

  /** Index of the first vertex of least y. */
  function TopIndex(ps: seq<Point>): (t: nat)
    requires |ps| > 0
    ensures t < |ps|
    ensures forall j :: 0 <= j < |ps| ==> ps[t].y <= ps[j].y
    ensures forall j :: 0 <= j < t ==> ps[t].y < ps[j].y
  {
    if |ps| == 1 then 0
    else
      var k := TopIndex(ps[1..]);
      if ps[0].y <= ps[k + 1].y then 0 else k + 1
  }

  /** The first-least-y characterisation determines the index. */
  lemma TopIndexUnique(ps: seq<Point>, t: nat)
    requires t < |ps|
    requires forall j :: 0 <= j < |ps| ==> ps[t].y <= ps[j].y
    requires forall j :: 0 <= j < t ==> ps[t].y < ps[j].y
    ensures TopIndex(ps) == t
  {
  }

  ghost predicate SortedByY(ps: seq<Point>)
  {
    forall i :: 0 < i < |ps| ==> ps[i - 1].y <= ps[i].y
  }

  /** Stable insertion of `p` before the first element that is not below it. */
  function InsertByY(p: Point, sorted: seq<Point>): (r: seq<Point>)
    ensures |r| == |sorted| + 1
    ensures multiset(r) == multiset(sorted) + multiset{p}
    ensures r[0] == (if |sorted| == 0 || p.y <= sorted[0].y then p else sorted[0])
  {
    if |sorted| == 0 || p.y <= sorted[0].y then [p] + sorted
    else
      assert sorted == [sorted[0]] + sorted[1..];
      [sorted[0]] + InsertByY(p, sorted[1..])
  }

  /** Insertion keeps a sorted sequence sorted. */
  lemma {:induction false} InsertKeepsSorted(p: Point, sorted: seq<Point>)
    requires SortedByY(sorted)
    ensures SortedByY(InsertByY(p, sorted))
  {
    if |sorted| == 0 || p.y <= sorted[0].y {
      ConsSorted(p, sorted);
    } else {
      assert SortedByY(sorted[1..]);
      InsertKeepsSorted(p, sorted[1..]);
      ConsSorted(sorted[0], InsertByY(p, sorted[1..]));
    }
  }

  /** A point no lower than the head of a sorted sequence can go in front. */
  lemma ConsSorted(p: Point, ps: seq<Point>)
    requires SortedByY(ps) && (|ps| == 0 || p.y <= ps[0].y)
    ensures SortedByY([p] + ps)
  {
    var r := [p] + ps;
    forall i | 0 < i < |r|
      ensures r[i - 1].y <= r[i].y
    {
      if i > 1 {
        assert r[i - 1] == ps[i - 2] && r[i] == ps[i - 1];
      }
    }
  }

  /** A stable sort by y (Python's `sorted(..., key=lambda p: p.y)`),
      written as an insertion sort. */
  function SortByY(ps: seq<Point>): (r: seq<Point>)
    ensures |r| == |ps|
    ensures multiset(r) == multiset(ps)
    ensures SortedByY(r)
  {
    if |ps| == 0 then []
    else
      assert ps == [ps[0]] + ps[1..];
      InsertKeepsSorted(ps[0], SortByY(ps[1..]));
      InsertByY(ps[0], SortByY(ps[1..]))
  }

  /** The head of the stable sort is the first vertex of least y. */
  lemma {:induction false} SortHeadIsTopIndex(ps: seq<Point>)
    requires |ps| > 0
    ensures SortByY(ps)[0] == ps[TopIndex(ps)]
  {
    if |ps| > 1 {
      SortHeadIsTopIndex(ps[1..]);
    }
  }

  /** The slider's top vertex as the widget takes it: the head of the
      vertices sorted stably by y, which is one of the vertices and has no
      vertex above it. The sort-head clause is quantified over sequences
      equal to `ps` so that the sort is unfolded only in proofs that
      mention it. */
  function TopPoint(ps: seq<Point>): (p: Point)
    requires |ps| > 0
    ensures forall qs :: qs == ps ==> p == SortByY(qs)[0]
    ensures p in ps
    ensures forall j :: 0 <= j < |ps| ==> p.y <= ps[j].y
  {
    SortHeadIsTopIndex(ps);
    ps[TopIndex(ps)]
  }

  // ---------------------------------------------------------------------------
  // Canvas item operations

  /** Tk `move`: translate every vertex. */
  function Translate(ps: seq<Point>, dx: real, dy: real): (qs: seq<Point>)
    ensures |qs| == |ps|
    ensures forall i :: 0 <= i < |ps| ==> qs[i] == Point(ps[i].x + dx, ps[i].y + dy)
  {
    seq(|ps|, i requires 0 <= i < |ps| => Point(ps[i].x + dx, ps[i].y + dy))
  }

  /** Scales one point by `r` about `o`. */
  function ScalePoint(p: Point, o: Point, r: real): Point
  {
    Point(Affine(o.x, r, p.x), Affine(o.y, r, p.y))
  }

  /** Tk `scale`: scale every vertex by `r` in both axes about `o`. */
  function Scale(ps: seq<Point>, o: Point, r: real): (qs: seq<Point>)
    ensures |qs| == |ps|
    ensures forall i :: 0 <= i < |ps| ==> qs[i] == ScalePoint(ps[i], o, r)
  {
    seq(|ps|, i requires 0 <= i < |ps| => ScalePoint(ps[i], o, r))
  }

  /** Tk `moveto`, abstracted: translate so that the least x and the least y
      of the vertices land on the target. */
  function MoveTo(ps: seq<Point>, tx: real, ty: real): (qs: seq<Point>)
    requires |ps| > 0
    ensures |qs| == |ps|
    ensures Min(Xs(qs)) == tx && Min(Ys(qs)) == ty
    ensures forall i :: 0 <= i < |ps| ==> qs[i].x - ps[i].x == tx - Min(Xs(ps)) && qs[i].y - ps[i].y == ty - Min(Ys(ps))
  {
    var dx := tx - Min(Xs(ps));
    var dy := ty - Min(Ys(ps));
    var qs := Translate(ps, dx, dy);
    TranslateExtremes(ps, dx, dy);
    qs
  }

  /** Shifting every member by `d` shifts both extremes by `d`. */
  lemma ShiftExtremes(xs: seq<real>, ys: seq<real>, d: real)
    requires |xs| == |ys| > 0
    requires forall i :: 0 <= i < |xs| ==> ys[i] == xs[i] + d
    ensures Min(ys) == Min(xs) + d && Max(ys) == Max(xs) + d
  {
    var i :| 0 <= i < |xs| && xs[i] == Min(xs);
    var k :| 0 <= k < |xs| && xs[k] == Max(xs);
    forall j | 0 <= j < |ys|
      ensures ys[i] <= ys[j] <= ys[k]
    {
      assert Min(xs) <= xs[j] <= Max(xs);
    }
    MinUnique(ys, ys[i]);
    MaxUnique(ys, ys[k]);
  }

  lemma TranslateExtremes(ps: seq<Point>, dx: real, dy: real)
    requires |ps| > 0
    ensures Min(Xs(Translate(ps, dx, dy))) == Min(Xs(ps)) + dx
    ensures Max(Xs(Translate(ps, dx, dy))) == Max(Xs(ps)) + dx
    ensures Min(Ys(Translate(ps, dx, dy))) == Min(Ys(ps)) + dy
  {
    var qs := Translate(ps, dx, dy);
    ShiftExtremes(Xs(ps), Xs(qs), dx);
    ShiftExtremes(Ys(ps), Ys(qs), dy);
  }

  /** A translation keeps the same vertex on top, shifted. */
  lemma TopUnderTranslate(ps: seq<Point>, dx: real, dy: real)
    requires |ps| > 0
    ensures TopIndex(Translate(ps, dx, dy)) == TopIndex(ps)
    ensures TopPoint(Translate(ps, dx, dy)) == Point(TopPoint(ps).x + dx, TopPoint(ps).y + dy)
  {
    var qs := Translate(ps, dx, dy);
    var t := TopIndex(ps);
    forall j | 0 <= j < |qs|
      ensures qs[t].y <= qs[j].y
      ensures j < t ==> qs[t].y < qs[j].y
    {
      assert ps[t].y <= ps[j].y;
    }
    TopIndexUnique(qs, t);
  }

  /** Scaling about the top vertex by a non-negative factor leaves the top
      vertex where it is. */
  lemma TopUnderScale(ps: seq<Point>, r: real)
    requires |ps| > 0
    ensures 0.0 <= r ==> TopPoint(Scale(ps, TopPoint(ps), r)) == TopPoint(ps)
  {
    if 0.0 <= r {
      TopUnderNonNegativeScale(ps, r);
    }
  }

  lemma TopUnderNonNegativeScale(ps: seq<Point>, r: real)
    requires |ps| > 0
    requires 0.0 <= r
    ensures TopPoint(Scale(ps, TopPoint(ps), r)) == TopPoint(ps)
  {
    var o := TopPoint(ps);
    var qs := Scale(ps, o, r);
    var t := TopIndex(ps);
    assert qs[t] == o;
    if r == 0.0 {
      assert forall j :: 0 <= j < |qs| ==> qs[j] == o;
    } else {
      forall j | 0 <= j < |qs|
        ensures qs[t].y <= qs[j].y
      {
        AffineMonotone(o.y, r, o.y, ps[j].y);
      }
      forall j | 0 <= j < t
        ensures qs[t].y < qs[j].y
      {
        AffineStrict(o.y, r, o.y, ps[j].y);
      }
      TopIndexUnique(qs, t);
    }
  }

  // ---------------------------------------------------------------------------
  // Centred sliders

  /** The top vertex sits midway between the leftmost and rightmost extents,
      as it does for a diamond. */
  ghost predicate Centred(ps: seq<Point>)
  {
    |ps| > 0 && 2.0 * TopPoint(ps).x == Min(Xs(ps)) + Max(Xs(ps))
  }

  lemma TranslateKeepsCentred(ps: seq<Point>, dx: real, dy: real)
    ensures Centred(ps) ==> Centred(Translate(ps, dx, dy))
  {
    if |ps| > 0 {
      TopUnderTranslate(ps, dx, dy);
      TranslateExtremes(ps, dx, dy);
    }
  }

  /** Multiplying by a non-negative factor keeps order. */
  lemma MulMonotone(r: real, a: real, b: real)
    requires 0.0 <= r && a <= b
    ensures r * a <= r * b
  {
    assert r * b - r * a == r * (b - a);
  }

  /** `x` scaled by `r` about `o`, one axis of Tk `scale`. */
  function Affine(o: real, r: real, x: real): real
  {
    o + r * (x - o)
  }

  lemma AffineMonotone(o: real, r: real, a: real, b: real)
    requires 0.0 <= r && a <= b
    ensures Affine(o, r, a) <= Affine(o, r, b)
  {
    MulMonotone(r, a - o, b - o);
  }

  lemma AffineStrict(o: real, r: real, a: real, b: real)
    requires 0.0 < r && a < b
    ensures Affine(o, r, a) < Affine(o, r, b)
  {
    assert r * (b - o) - r * (a - o) == r * (b - a);
  }

  /** Scaling every member about `o` by a non-negative `r` scales both
      extremes the same way. */
  lemma ScaleExtremes(xs: seq<real>, ys: seq<real>, o: real, r: real)
    requires |xs| == |ys| > 0
    requires 0.0 <= r
    requires forall i :: 0 <= i < |xs| ==> ys[i] == Affine(o, r, xs[i])
    ensures Min(ys) == Affine(o, r, Min(xs)) && Max(ys) == Affine(o, r, Max(xs))
  {
    var lo, hi := Min(xs), Max(xs);
    var i :| 0 <= i < |xs| && xs[i] == lo;
    var k :| 0 <= k < |xs| && xs[k] == hi;
    forall j | 0 <= j < |ys|
      ensures ys[i] <= ys[j] <= ys[k]
    {
      AffineMonotone(o, r, lo, xs[j]);
      AffineMonotone(o, r, xs[j], hi);
    }
    MinUnique(ys, ys[i]);
    MaxUnique(ys, ys[k]);
  }

  /** Two values placed symmetrically about `o` stay symmetric about it. */
  lemma AffineSymmetric(o: real, r: real, a: real, b: real)
    requires a + b == 2.0 * o
    ensures Affine(o, r, a) + Affine(o, r, b) == 2.0 * o
  {
    assert r * (a - o) + r * (b - o) == r * ((a - o) + (b - o));
  }

  /** Scaling about the top vertex by a non-negative `r` keeps the top vertex,
      keeps it the highest point, and scales the horizontal extremes by `r`
      about its x. */
  lemma ScaleAboutTop(ps: seq<Point>, r: real)
    requires |ps| > 0
    requires 0.0 <= r
    ensures var o, qs := TopPoint(ps), Scale(ps, TopPoint(ps), r);
      && TopPoint(qs) == o
      && Min(Xs(qs)) == Affine(o.x, r, Min(Xs(ps)))
      && Max(Xs(qs)) == Affine(o.x, r, Max(Xs(ps)))
      && Min(Ys(qs)) == o.y
  {
    var o := TopPoint(ps);
    var qs := Scale(ps, o, r);
    TopUnderNonNegativeScale(ps, r);
    ScaleExtremes(Xs(ps), Xs(qs), o.x, r);
    MinUnique(Ys(qs), o.y);
  }

  lemma ScaleKeepsCentred(ps: seq<Point>, r: real)
    requires |ps| > 0
    ensures 0.0 <= r && Centred(ps) ==> Centred(Scale(ps, TopPoint(ps), r))
  {
    if 0.0 <= r && Centred(ps) {
      ScaleCentred(ps, r);
    }
  }

  lemma ScaleCentred(ps: seq<Point>, r: real)
    requires Centred(ps)
    requires 0.0 <= r
    ensures Centred(Scale(ps, TopPoint(ps), r))
  {
    ScaleAboutTop(ps, r);
    AffineSymmetric(TopPoint(ps).x, r, Min(Xs(ps)), Max(Xs(ps)));
  }
}

=== FILE: options.dfy ===
/** The widget's named configuration options: the values they hold, the
    defaults, the exceptions the widget raises, and `cget`. */
module Options {
  import opened Wrappers

  /** A Python value as far as the widget cares about it. Colours and other
      strings are opaque text; a callable and a Tk control variable are known
      only by identity. */
  datatype Value =
    | Nil                       // Python None
    | Num(n: real)              // an int or a float
    | Text(s: string)
    | Callable(name: string)    // a function, e.g. the `command` callback
    | ControlVar(name: string)  // a Tk DoubleVar or StringVar

  /** The exceptions the widget's own code can raise. */
  datatype Error =
    | ValueError(option: string)  // `cget` of an option name that does not exist
    | TypeError                   // arithmetic on a non-number, or calling a non-callable
    | ZeroDivisionError           // a width or height of zero used as a divisor
    | AttributeError              // `.set` on a truthy value that is not a control variable

  type Options = map<string, Value>

  const TroughWidth := "trough_width"
  const TroughHeight := "trough_height"
  const TroughColor := "trough_color"
  const SliderColor := "slider_color"
  const Resolution := "resolution"
  const Command := "command"
  const Variable := "variable"

  /** The name of the do-nothing default callback. */
  const NoOp := "lambda ratio: None"

  const Defaults: Options := map[
    TroughWidth := Num(300.0),
    TroughHeight := Num(25.0),
    TroughColor := Text("white"),
    SliderColor := Text("black"),
    Resolution := Num(3.0),
    Command := Callable(NoOp),
    Variable := Nil
  ]

  const DefaultKeys: set<string> := {TroughWidth, TroughHeight, TroughColor, SliderColor, Resolution, Command, Variable}

  lemma DefaultsHaveDefaultKeys()
    ensures Defaults.Keys == DefaultKeys
  {
  }

  /** The default value of each option. */
  lemma DefaultValues()
    ensures Defaults[TroughWidth] == Num(300.0) && Defaults[TroughHeight] == Num(25.0)
    ensures Defaults[Resolution] == Num(3.0)
    ensures Defaults[Command] == Callable(NoOp) && Defaults[Variable] == Nil
  {
  }

  /** Python truthiness. Callables and Tk control variables are always true. */
  predicate Truthy(v: Value)
  {
    match v
    case Nil => false
    case Num(n) => n != 0.0
    case Text(s) => s != ""
    case Callable(_) => true
    case ControlVar(_) => true
  }

  /** The value of one named option, or the ValueError `cget` raises. */
  function Lookup(opts: Options, name: string): (r: Result<Value, Error>)
    ensures r.Success? <==> name in opts
    ensures r.Success? ==> r.value == opts[name]
    ensures r.Failure? ==> r.error == ValueError(name)
  {
    if name in opts then Success(opts[name]) else Failure(ValueError(name))
  }

  /** What `cget` hands back: the whole option mapping, or one value. */
  datatype Answer = AllOptions(all: Options) | OptionValue(value: Value)

  /** `cget(name)`: the empty name asks for every option. */
  function Cget(opts: Options, name: string): (r: Result<Answer, Error>)
    ensures name == "" ==> r == Success(AllOptions(opts))
    ensures name != "" ==> (r.Success? <==> name in opts)
    ensures name != "" && name in opts ==> r == Success(OptionValue(opts[name]))
    ensures name != "" && name !in opts ==> r == Failure(ValueError(name))
  {
    if name == "" then Success(AllOptions(opts))
    else
      match Lookup(opts, name)
      case Success(v) => Success(OptionValue(v))
      case Failure(e) => Failure(e)
  }
}

=== FILE: properties.dfy ===
/** Properties of the scrollbar model that relate several calls or hold for
    every input: what construction sets up, that reports call the command
    once, where repeated steps end up, where a jump lands, what `config`
    preserves, and which names `cget` answers. */
module Properties {
  import opened Wrappers
  import opened Geometry
  import opened Options
  import opened Widget

  // ---------------------------------------------------------------------------
  // Construction

  /** The options of a new widget: the defaults overridden by the caller's,
      with `resolution` forced to 1% of the width even when the caller gave
      one. */
  lemma NewOptions(overrides: Options)
    requires New(overrides).Success?
    ensures var s := New(overrides).value;
      && s.options.Keys == DefaultKeys + overrides.Keys
      && (forall k :: k in s.options && k != Resolution ==>
            s.options[k] == (if k in overrides then overrides[k] else Defaults[k]))
      && s.options[Resolution].Num?
      && s.options[Resolution].n * 100.0 == s.options[TroughWidth].n
  {
    DefaultsHaveDefaultKeys();
  }

  /** A new widget's slider has its top vertex at x = 0, is centred on it,
      and nothing has been reported yet; the canvas has the width in pixels. */
  lemma NewGeometry(overrides: Options)
    requires New(overrides).Success?
    ensures var s := New(overrides).value;
      && TopX(s) == 0.0 && Centred(s.slider) && s.log == []
      && s.options[TroughWidth].Num? && s.canvasWidth == Pixels(s.options[TroughWidth].n)
  {
  }

  /** A new widget reports the ratio 0. */
  lemma NewRatioIsZero(overrides: Options)
    requires New(overrides).Success?
    requires WidthUsable(New(overrides).value.options) && VariableUsable(New(overrides).value.options)
    ensures Expose(New(overrides).value).result == Success(0.0)
  {
    NewGeometry(overrides);
    ExposeAtZero(New(overrides).value);
  }

  /** A slider whose top vertex is at x = 0 reports the ratio 0. */
  lemma ExposeAtZero(s: Scrollbar)
    requires TopX(s) == 0.0 && WidthUsable(s.options) && VariableUsable(s.options)
    ensures Expose(s).result == Success(0.0)
  {
    Cancel(Expose(s).result.value, 0.0, s.options[TroughWidth].n);
  }

  /** With no arguments: the default options, resolution 3 included, a
      300-pixel canvas, the diamond for a 25-pixel trough, nothing reported. */
  lemma DefaultConstruction()
    ensures New(map[]) == Success(Scrollbar(Defaults, 300, InitialSlider(25.0), []))
  {
    var merged := Defaults + map[];
    assert merged == Defaults;
    assert merged[TroughWidth] == Num(300.0);
    var opts := merged[Resolution := Num(300.0 * 0.01)];
    assert opts == Defaults;
    assert opts[TroughHeight] == Num(25.0);
    assert Pixels(300.0) == 300;
  }

  /** `cget` answers exactly the default names and the names the caller
      supplied at construction, and raises ValueError for any other. */
  lemma CgetAfterNew(overrides: Options, name: string)
    requires New(overrides).Success?
    requires name != ""
    ensures Get(New(overrides).value, name).Success? <==> name in DefaultKeys || name in overrides
    ensures !(name in DefaultKeys || name in overrides) ==>
      Get(New(overrides).value, name) == Failure(ValueError(name))
  {
    NewOptions(overrides);
  }

  // ---------------------------------------------------------------------------
  // Reporting

  /** The command receives the top vertex's x over the trough width, and the
      bound variable, if any, gets the same value just before. */
  lemma ReportCarriesRatio(s: Scrollbar)
    requires Notifiable(s.options)
    ensures var r := ExecCommand(s);
      var ratio := TopX(s) / s.options[TroughWidth].n;
      && |r.after.log| > |s.log|
      && r.after.log[|r.after.log| - 1] == Called(s.options[Command].name, ratio)
      && ratio * s.options[TroughWidth].n == TopX(s)
      && (s.options[Variable].ControlVar? ==> r.after.log[|s.log|] == Wrote(s.options[Variable].name, ratio))
  {
  }

  // ---------------------------------------------------------------------------
  // Stepping

  /** After a left press the top vertex is at or right of 0, after a right
      press at or left of the canvas width; a non-negative step from inside
      the trough stays inside it. */
  lemma StepStaysInTrough(s: Scrollbar, direction: Direction)
    requires HasStep(s)
    ensures var x, w := TopX(Step(s, direction).after), s.canvasWidth as real;
      && (direction == Left ==> x >= 0.0)
      && (direction == Right ==> x <= w)
      && (s.options[Resolution].n >= 0.0 && 0.0 <= TopX(s) <= w ==> 0.0 <= x <= w)
  {
  }

  /** A press keeps a centred slider centred. */
  lemma StepKeepsCentred(s: Scrollbar, direction: Direction)
    ensures Centred(s.slider) ==> Centred(Step(s, direction).after.slider)
  {
    if HasStep(s) {
      RigidMove(s.slider, Step(s, direction).after.slider);
    }
  }

  /** How far `n` unclamped steps of `d` go. */
  function Travel(n: nat, d: real): (t: real)
    ensures d >= 0.0 ==> t >= 0.0
  {
    if n == 0 then 0.0 else d + Travel(n - 1, d)
  }

  /** `n` steps of `d` go `n * d`. */
  lemma {:induction false} TravelIsProduct(n: nat, d: real)
    ensures Travel(n, d) == (n as real) * d
  {
    if n > 0 {
      TravelIsProduct(n - 1, d);
      assert (n as real) * d == d + ((n - 1) as real) * d;
    }
  }

  /** Going `a` and then `b` more, both non-negative, ends where going `a + b`
      at once does: the edge stops the slider only once. */
  lemma ReachTwice(x: real, direction: Direction, a: real, b: real, w: real)
    requires a >= 0.0 && b >= 0.0
    ensures Reach(Reach(x, direction, a, w), direction, b, w) == Reach(x, direction, a + b, w)
  {
  }

  /** One press of a button, with what it does to the state: the options and
      the canvas stay, the command is called once when the step size is a
      number and the report goes through, a centred slider stays centred, and
      the top vertex moves by the step size, stopping at the edge. */
  method PressOnce(s: Scrollbar, direction: Direction) returns (t: Scrollbar)
    ensures t.options == s.options && t.canvasWidth == s.canvasWidth
    ensures Calls(t.log) == Calls(s.log) + (if HasStep(s) && Notifiable(s.options) then 1 else 0)
    ensures Centred(s.slider) ==> Centred(t.slider)
    ensures HasStep(s) ==> TopX(t) == Reach(TopX(s), direction, s.options[Resolution].n, s.canvasWidth as real)
  {
    StepKeepsCentred(s, direction);
    t := Step(s, direction).after;
  }

  /** Where the top vertex is after `n` clamped steps of `d`, one at a time. */
  function Walk(x: real, direction: Direction, d: real, w: real, n: nat): real
  {
    if n == 0 then x else Reach(Walk(x, direction, d, w, n - 1), direction, d, w)
  }

  /** With a positive step, `n >= 1` clamped steps end where one clamped
      move of `n * d` does. */
  lemma {:induction false} WalkClosedForm(x: real, direction: Direction, d: real, w: real, n: nat)
    requires d > 0.0 && n >= 1
    ensures Walk(x, direction, d, w, n) == Reach(x, direction, Travel(n, d), w)
  {
    if n > 1 {
      WalkClosedForm(x, direction, d, w, n - 1);
      ReachTwice(x, direction, Travel(n - 1, d), d, w);
    }
  }

  /** Enough steps of a positive size reach the edge on the button's side
      wherever they start, even beyond either edge; steps from the edge stay
      there. */
  lemma WalkReachesEdge(x: real, direction: Direction, d: real, w: real, n: nat)
    requires d > 0.0 && n >= 1
    requires direction == Left ==> (n as real) * d >= x
    requires direction == Right ==> (n as real) * d >= w - x
    ensures Walk(x, direction, d, w, n) == if direction == Left then 0.0 else w
  {
    WalkClosedForm(x, direction, d, w, n);
    TravelIsProduct(n, d);
  }

  /** `n` presses of the same button in a row. A press that raises still
      leaves its effects, and the next press starts from them. The top vertex
      takes `n` clamped steps; by `WalkClosedForm`, with a positive step `d`
      that is one move of `n * d` toward the button's side, stopped at 0 or at
      the canvas width. */
  method PressRepeatedly(s: Scrollbar, direction: Direction, n: nat) returns (t: Scrollbar)
    ensures t.options == s.options && t.canvasWidth == s.canvasWidth
    ensures HasStep(s) && Notifiable(s.options) ==> Calls(t.log) == Calls(s.log) + n
    ensures Centred(s.slider) ==> Centred(t.slider)
    ensures HasStep(s) ==> TopX(t) == Walk(TopX(s), direction, s.options[Resolution].n, s.canvasWidth as real, n)
  {
    t := s;
    var i := 0;
    while i < n
      invariant i <= n
      invariant t.options == s.options && t.canvasWidth == s.canvasWidth
      invariant HasStep(s) && Notifiable(s.options) ==> Calls(t.log) == Calls(s.log) + i
      invariant Centred(s.slider) ==> Centred(t.slider)
      invariant HasStep(s) ==> TopX(t) == Walk(TopX(s), direction, s.options[Resolution].n, s.canvasWidth as real, i)
    {
      t := PressOnce(t, direction);
      i := i + 1;
    }
  }

  /** The widget `CustomScrollbar(master)` builds, with the facts about it
      that pressing needs. */
  method DefaultWidget() returns (s: Scrollbar)
    ensures New(map[]) == Success(s)
    ensures s.options == Defaults && s.canvasWidth == 300 && s.log == []
    ensures TopX(s) == 0.0 && HasStep(s) && s.options[Resolution].n == 3.0 && s.options[TroughWidth].n == 300.0
    ensures Notifiable(s.options)
  {
    DefaultConstruction();
    NewGeometry(map[]);
    DefaultValues();
    s := New(map[]).value;
  }

  /** Enough presses of a button pin the slider to the edge on its side, and
      every press calls the command once. */
  method PressToEdge(s: Scrollbar, direction: Direction, n: nat) returns (t: Scrollbar)
    requires HasStep(s) && s.options[Resolution].n > 0.0 && n >= 1
    requires direction == Left ==> (n as real) * s.options[Resolution].n >= TopX(s)
    requires direction == Right ==> (n as real) * s.options[Resolution].n >= s.canvasWidth as real - TopX(s)
    ensures t.options == s.options && t.canvasWidth == s.canvasWidth
    ensures TopX(t) == if direction == Left then 0.0 else s.canvasWidth as real
    ensures Notifiable(s.options) ==> Calls(t.log) == Calls(s.log) + n
  {
    var x, d, w := TopX(s), s.options[Resolution].n, s.canvasWidth as real;
    WalkReachesEdge(x, direction, d, w, n);
    t := PressRepeatedly(s, direction, n);
  }

  /** A default widget pressed right 200 times: each press calls the command
      once and the slider ends pinned at the 300-pixel edge. */
  method PinRight() returns (t: Scrollbar)
    ensures t.canvasWidth == 300 && TopX(t) == 300.0
    ensures Calls(t.log) == 200
  {
    var s := DefaultWidget();
    t := PressToEdge(s, Right, 200);
  }

  // ---------------------------------------------------------------------------
  // Jumping

  /** A rigid move is a translation by the first vertex's shift, so it keeps
      the horizontal extent and keeps a centred slider centred. */
  lemma RigidMove(ps: Slider, qs: Slider)
    requires Translated(ps, qs)
    ensures SliderLength(qs) == SliderLength(ps)
    ensures Centred(ps) ==> Centred(qs)
  {
    var dx, dy := qs[0].x - ps[0].x, qs[0].y - ps[0].y;
    assert qs == Translate(ps, dx, dy);
    TranslateExtremes(ps, dx, dy);
    TranslateKeepsCentred(ps, dx, dy);
  }

  /** A jump moves the slider rigidly: its horizontal extent is unchanged and
      a centred slider stays centred. */
  lemma JumpKeepsShape(ps: Slider, x: real)
    ensures SliderLength(Jumped(ps, x)) == SliderLength(ps)
    ensures Centred(ps) ==> Centred(Jumped(ps, x))
  {
    RigidMove(ps, Jumped(ps, x));
  }

  /** On a centred slider a jump to `x` lands the top vertex within one pixel
      of `x`: below it by less than a pixel when the left extent is at or
      right of 0, above it by less than a pixel otherwise. */
  lemma JumpLandsNearX(s: Scrollbar, x: real)
    requires Centred(s.slider)
    ensures var top := TopX(MoveSliderTo(s, Num(x)).after);
      && (x - SliderLength(s.slider) / 2.0 >= 0.0 ==> x - 1.0 < top <= x)
      && (x - SliderLength(s.slider) / 2.0 < 0.0 ==> x <= top < x + 1.0)
  {
    JumpCentre(s.slider, x);
  }

  lemma JumpCentre(ps: Slider, x: real)
    requires Centred(ps)
    ensures var top := TopPoint(Jumped(ps, x)).x;
      && (x - SliderLength(ps) / 2.0 >= 0.0 ==> x - 1.0 < top <= x)
      && (x - SliderLength(ps) / 2.0 < 0.0 ==> x <= top < x + 1.0)
  {
    var qs := Jumped(ps, x);
    JumpKeepsShape(ps, x);
    assert 2.0 * TopPoint(qs).x == Min(Xs(qs)) + Max(Xs(qs));
  }

  /** A jump does not clamp: a target far enough right puts the top vertex
      beyond the canvas width, one far enough left puts it below 0. */
  lemma JumpDoesNotClamp(s: Scrollbar, x: real)
    ensures x - SliderLength(s.slider) / 2.0 >= s.canvasWidth as real + 1.0 ==>
      TopX(MoveSliderTo(s, Num(x)).after) > s.canvasWidth as real
    ensures x + SliderLength(s.slider) / 2.0 <= -1.0 ==>
      TopX(MoveSliderTo(s, Num(x)).after) < 0.0
  {
    JumpBounds(s.slider, x);
  }

  /** The top vertex after a jump lies within the slider's new extent. */
  lemma JumpBounds(ps: Slider, x: real)
    ensures var top, t := TopPoint(Jumped(ps, x)).x, Trunc(x - SliderLength(ps) / 2.0) as real;
      t <= top <= t + SliderLength(ps)
  {
    var qs := Jumped(ps, x);
    JumpKeepsShape(ps, x);
    TopWithinExtent(qs);
  }

  /** The top vertex lies between the leftmost and rightmost extents. */
  lemma TopWithinExtent(ps: Slider)
    ensures Min(Xs(ps)) <= TopPoint(ps).x <= Min(Xs(ps)) + SliderLength(ps)
  {
    var i := TopIndex(ps);
    assert Min(Xs(ps)) <= Xs(ps)[i] <= Max(Xs(ps));
  }

  // ---------------------------------------------------------------------------
  // Configuration

  /** `config` never calls the command. */
  lemma ConfigNeverCalls(s: Scrollbar, kw: Kwargs)
    requires DistinctKeys(kw)
    ensures Calls(Config(s, kw).after.log) == Calls(s.log)
  {
    var after := Config(s, kw).after;
    var added := after.log[|s.log|..];
    assert after.log == s.log + added;
    NoCallsInWrites(added);
    CallsAppend(s.log, added);
  }

  /** Entries naming no existing option make no difference at all. */
  lemma ConfigIgnoresUnknownKeys(s: Scrollbar, kw: Kwargs)
    requires DistinctKeys(kw)
    ensures DistinctKeys(Known(kw, s.options))
    ensures Config(s, kw) == Config(s, Known(kw, s.options))
  {
    KnownDistinct(kw, s.options);
    KnownIdempotent(kw, s.options);
    CommitOnlyKnown(s.options, kw);
  }

  lemma {:induction false} KnownDistinct(kw: Kwargs, opts: Options)
    requires DistinctKeys(kw)
    ensures DistinctKeys(Known(kw, opts))
  {
    if |kw| > 0 {
      KnownDistinct(kw[1..], opts);
      var rest := Known(kw[1..], opts);
      assert forall e :: e in rest ==> e in kw[1..];
      assert forall e :: e in kw[1..] ==> e.0 != kw[0].0;
    }
  }

  lemma {:induction false} KnownIdempotent(kw: Kwargs, opts: Options)
    ensures Known(Known(kw, opts), opts) == Known(kw, opts)
  {
    if |kw| > 0 {
      KnownIdempotent(kw[1..], opts);
      var head := if kw[0].0 in opts then [kw[0]] else [];
      KnownAppend(head, Known(kw[1..], opts), opts);
    }
  }

  lemma {:induction false} KnownAppend(a: Kwargs, b: Kwargs, opts: Options)
    ensures Known(a + b, opts) == Known(a, opts) + Known(b, opts)
  {
    if |a| > 0 {
      assert (a + b)[1..] == a[1..] + b;
      KnownAppend(a[1..], b, opts);
    } else {
      assert a + b == b;
    }
  }

  lemma CommitOnlyKnown(opts: Options, kw: Kwargs)
    requires DistinctKeys(kw)
    ensures Commit(opts, kw) == Commit(opts, Known(kw, opts))
  {
    var all := Commit(opts, kw);
    var valid := Commit(opts, Known(kw, opts));
    forall k | k in opts
      ensures all[k] == valid[k]
    {
      KnownEntry(opts, kw, k);
    }
  }

  /** Filtering to existing options keeps the entry of every existing option. */
  lemma KnownEntry(opts: Options, kw: Kwargs, k: string)
    requires DistinctKeys(kw) && k in opts
    ensures (k in AsMap(kw)) == (k in AsMap(Known(kw, opts)))
    ensures k in AsMap(kw) ==> AsMap(kw)[k] == AsMap(Known(kw, opts))[k]
  {
    if k in AsMap(kw) {
      KnownKeepsEntry(opts, kw, k);
    }
    if k in AsMap(Known(kw, opts)) {
      KnownAddsNothing(opts, kw, k);
    }
  }

  lemma KnownKeepsEntry(opts: Options, kw: Kwargs, k: string)
    requires DistinctKeys(kw) && k in opts && k in AsMap(kw)
    ensures k in AsMap(Known(kw, opts)) && AsMap(kw)[k] == AsMap(Known(kw, opts))[k]
  {
    var valid := Known(kw, opts);
    KnownDistinct(kw, opts);
    var i :| 0 <= i < |kw| && kw[i].0 == k;
    assert kw[i] in kw;
    assert kw[i] in valid;
    var j :| 0 <= j < |valid| && valid[j] == kw[i];
    assert AsMap(valid)[k] == valid[j].1;
  }

  lemma KnownAddsNothing(opts: Options, kw: Kwargs, k: string)
    requires k in AsMap(Known(kw, opts))
    ensures k in AsMap(kw)
  {
    var valid := Known(kw, opts);
    var j :| 0 <= j < |valid| && valid[j].0 == k;
    assert valid[j] in valid;
    var i :| 0 <= i < |kw| && kw[i] == valid[j];
  }

  /** Entries whose value equals the stored one have no effect. */
  lemma {:induction false} ConfigureEachUnchanged(s: Scrollbar, items: Kwargs)
    requires forall e :: e in items ==> e.0 in s.options && e.1 == s.options[e.0]
    ensures ConfigureEach(s, items) == Outcome(s, Success(()))
  {
    if |items| > 0 {
      assert items[0] in items;
      assert forall e :: e in items[1..] ==> e in items;
      ConfigureEachUnchanged(s, items[1..]);
    }
  }

  /** `config` with values equal to the stored ones changes nothing. */
  lemma ConfigSameValuesChangesNothing(s: Scrollbar, kw: Kwargs)
    requires DistinctKeys(kw)
    requires forall e :: e in kw && e.0 in s.options ==> e.1 == s.options[e.0]
    ensures Config(s, kw) == Outcome(s, Success(()))
  {
    ConfigureEachUnchanged(s, Known(kw, s.options));
    var c := Commit(s.options, kw);
    forall k | k in s.options
      ensures c[k] == s.options[k]
    {
      if k in AsMap(kw) {
        var i :| 0 <= i < |kw| && kw[i].0 == k;
        assert kw[i] in kw;
      }
    }
  }

  /** A `config` call with one entry naming an existing option: its effect,
      then the commit of the new value unless the effect raised. */
  lemma ConfigSingle(s: Scrollbar, k: string, v: Value)
    requires k in s.options
    ensures var one := ConfigureOne(s, k, v);
      Config(s, [(k, v)]) ==
        if one.result.Failure? then one else Outcome(one.after.(options := s.options[k := v]), Success(()))
  {
    var kw := [(k, v)];
    var one := ConfigureOne(s, k, v);
    assert Known(kw, s.options) == kw;
    assert kw[0] == (k, v) && kw[1..] == [];
    var done := ConfigureEach(s, kw);
    assert done == if one.result.Failure? then one else ConfigureEach(one.after, []);
    assert AsMap(kw) == map[k := v];
    assert Commit(s.options, kw) == s.options[k := v];
  }

  /** A new trough width W2 moves the top vertex from x to x*W2/W1, so the
      reported ratio is unchanged; the canvas takes the new width, the width
      option is committed and nothing else changes, `resolution` included. */
  lemma ConfigWidthKeepsRatio(s: Scrollbar, w1: real, w2: real)
    requires TroughWidth in s.options && s.options[TroughWidth] == Num(w1)
    requires w1 != 0.0 && w2 != 0.0 && w2 != w1
    ensures var r := Config(s, [(TroughWidth, Num(w2))]);
      && r.result.Success?
      && TopX(r.after) / w2 == TopX(s) / w1
      && r.after.canvasWidth == Pixels(w2)
      && r.after.options == s.options[TroughWidth := Num(w2)]
      && r.after.log == s.log
  {
    var one := ConfigureOne(s, TroughWidth, Num(w2));
    ConfigSingle(s, TroughWidth, Num(w2));
    FractionRatio(s.slider, one.after.slider, w1, w2);
  }

  /** `a * w1 == b * w2` with non-zero widths means equal fractions. */
  lemma SameFraction(a: real, b: real, w1: real, w2: real)
    requires w1 != 0.0 && w2 != 0.0
    requires a * w1 == b * w2
    ensures a / w2 == b / w1
  {
    assert a / w2 == (a * w1) / (w1 * w2);
    assert b / w1 == (b * w2) / (w1 * w2);
  }

  /** A new trough height scales the slider about its top vertex: the top
      vertex, and so the ratio, stay put, and `resolution` is unchanged. */
  lemma ConfigHeightKeepsTop(s: Scrollbar, h1: real, h2: real)
    requires TroughHeight in s.options && s.options[TroughHeight] == Num(h1)
    requires h1 != 0.0 && h2 != h1 && h2 / h1 >= 0.0
    ensures var r := Config(s, [(TroughHeight, Num(h2))]);
      && r.result.Success?
      && TopPoint(r.after.slider) == TopPoint(s.slider)
      && r.after.canvasWidth == s.canvasWidth
      && r.after.options == s.options[TroughHeight := Num(h2)]
      && r.after.log == s.log
      && (Centred(s.slider) ==> Centred(r.after.slider))
  {
    ConfigSingle(s, TroughHeight, Num(h2));
    ScaleKeepsCentred(s.slider, h2 / h1);
  }

  /** The width that the first width entry holding a number sets, or `w`
      when no entry sets one. */
  function WidthAfter(items: Kwargs, w: real): real
  {
    if |items| == 0 then w
    else if items[0].0 == TroughWidth && items[0].1.Num? then items[0].1.n
    else WidthAfter(items[1..], w)
  }

  /** Every height entry that is a number, against a usable stored height,
      scales the slider by a non-negative ratio. */
  ghost predicate HeightsKeepTop(opts: Options, kw: Kwargs)
  {
    forall e :: e in kw ==> HeightKeepsTop(opts, e.0, e.1)
  }

  /** The entry is not a height that is a number against a usable stored
      height, or it scales the slider by a non-negative ratio. */
  predicate HeightKeepsTop(opts: Options, k: string, v: Value)
  {
    k == TroughHeight && v.Num? && TroughHeight in opts && opts[TroughHeight].Num? && opts[TroughHeight].n != 0.0
    ==> v.n / opts[TroughHeight].n >= 0.0
  }

  /** A `config` call with any number of entries that goes through keeps the
      top vertex's fraction of the trough: its x over the committed width
      equals its old x over the old width, and its height is unchanged. A
      call without a width entry leaves the top vertex where it was. The
      new width is committed as a number, and `resolution` is not touched
      unless the call names it. */
  lemma ConfigKeepsRatio(s: Scrollbar, kw: Kwargs)
    requires DistinctKeys(kw)
    requires WidthUsable(s.options)
    requires HeightsKeepTop(s.options, kw)
    requires Config(s, kw).result.Success?
    ensures var r, w1 := Config(s, kw), s.options[TroughWidth].n;
      && r.after.options[TroughWidth].Num?
      && KeepsFraction(s.slider, r.after.slider, w1, r.after.options[TroughWidth].n)
      && (r.after.options[TroughWidth].n != 0.0 ==>
            TopX(r.after) / r.after.options[TroughWidth].n == TopX(s) / w1)
      && ((forall e :: e in kw ==> e.0 != TroughWidth) ==> TopPoint(r.after.slider) == TopPoint(s.slider))
  {
    var w1 := s.options[TroughWidth].n;
    var items := Known(kw, s.options);
    KnownDistinct(kw, s.options);
    assert forall e :: e in items ==> e in kw;
    ConfigureEachKeepsFraction(s, items);
    CommittedWidth(s.options, kw);
    var w2 := WidthAfter(items, w1);
    var after := Config(s, kw).after;
    assert after.slider == ConfigureEach(s, items).after.slider;
    assert after.options[TroughWidth] == Num(w2);
    FractionRatio(s.slider, after.slider, w1, w2);
  }

  /** The width `config` commits is the one the valid entries set, provided
      every valid width entry is a number. */
  lemma CommittedWidth(opts: Options, kw: Kwargs)
    requires DistinctKeys(kw) && TroughWidth in opts && opts[TroughWidth].Num?
    requires forall e :: e in Known(kw, opts) && e.0 == TroughWidth ==> e.1.Num?
    ensures Commit(opts, kw)[TroughWidth] == Num(WidthAfter(Known(kw, opts), opts[TroughWidth].n))
    ensures TroughWidth !in AsMap(kw) ==> WidthAfter(Known(kw, opts), opts[TroughWidth].n) == opts[TroughWidth].n
  {
    var items := Known(kw, opts);
    KnownDistinct(kw, opts);
    WidthAfterIsEntry(items, opts[TroughWidth].n);
    KnownEntry(opts, kw, TroughWidth);
  }

  /** Keeping the fraction from width `w1` to `w2` means equal ratios of the
      top x to the width, and the same top vertex when the width stays. */
  lemma FractionRatio(a: Slider, c: Slider, w1: real, w2: real)
    requires w1 != 0.0 && KeepsFraction(a, c, w1, w2)
    ensures w2 != 0.0 ==> TopPoint(c).x / w2 == TopPoint(a).x / w1
    ensures w2 == w1 ==> TopPoint(c) == TopPoint(a)
  {
    if w2 != 0.0 {
      SameFraction(TopPoint(c).x, TopPoint(a).x, w1, w2);
    }
    if w2 == w1 {
      Cancel(TopPoint(c).x, TopPoint(a).x, w1);
    }
  }

  /** The entries of a `config` call, run in order against the options
      stored before the call, compose: the one width entry moves the top
      vertex to keep its fraction of the trough, height entries keep it, and
      every other entry leaves the slider alone. */
  lemma {:induction false} ConfigureEachKeepsFraction(s: Scrollbar, items: Kwargs)
    requires forall e :: e in items ==> e.0 in s.options
    requires DistinctKeys(items)
    requires WidthUsable(s.options)
    requires HeightsKeepTop(s.options, items)
    ensures var r, w1 := ConfigureEach(s, items), s.options[TroughWidth].n;
      r.result.Success? ==>
        && KeepsFraction(s.slider, r.after.slider, w1, WidthAfter(items, w1))
        && (forall e :: e in items && e.0 == TroughWidth ==> e.1.Num?)
    decreases |items|
  {
    if |items| > 0 {
      var w1 := s.options[TroughWidth].n;
      var k, v := items[0].0, items[0].1;
      assert items[0] in items;
      var first := ConfigureOne(s, k, v);
      var rest := items[1..];
      if first.result.Success? {
        EntryKeepsFraction(s, k, v);
        assert forall e :: e in rest ==> e in items;
        TailDistinct(items);
        ConfigureEachKeepsFraction(first.after, rest);
        var fin := ConfigureEach(first.after, rest);
        if fin.result.Success? {
          if k == TroughWidth {
            NoWidthEntry(rest, w1);
            FractionThenStill(s.slider, first.after.slider, fin.after.slider, w1, v.n);
          } else {
            StillThenFraction(s.slider, first.after.slider, fin.after.slider, w1, WidthAfter(rest, w1));
          }
        }
      }
    }
  }

  /** One entry that goes through keeps the top vertex's fraction of the
      trough: a width entry for its new width, any other entry for the
      stored width. A width entry that goes through is a number. */
  lemma EntryKeepsFraction(s: Scrollbar, k: string, v: Value)
    requires k in s.options && WidthUsable(s.options)
    requires HeightKeepsTop(s.options, k, v)
    requires ConfigureOne(s, k, v).result.Success?
    ensures k == TroughWidth ==> v.Num?
    ensures var w1 := s.options[TroughWidth].n;
      KeepsFraction(s.slider, ConfigureOne(s, k, v).after.slider, w1, if k == TroughWidth then v.n else w1)
  {
  }

  /** The entries after the first have distinct keys, none of them the
      first's. */
  lemma TailDistinct(items: Kwargs)
    requires |items| > 0 && DistinctKeys(items)
    ensures DistinctKeys(items[1..])
    ensures forall i :: 0 <= i < |items| - 1 ==> items[1..][i].0 != items[0].0
  {
    var rest := items[1..];
    forall i, j | 0 <= i < j < |rest|
      ensures rest[i].0 != rest[j].0
    {
      assert rest[i] == items[i + 1] && rest[j] == items[j + 1];
    }
    forall i | 0 <= i < |rest|
      ensures rest[i].0 != items[0].0
    {
      assert rest[i] == items[i + 1];
    }
  }

  /** Without a width entry the width stays `w`. */
  lemma {:induction false} NoWidthEntry(items: Kwargs, w: real)
    requires forall i :: 0 <= i < |items| ==> items[i].0 != TroughWidth
    ensures WidthAfter(items, w) == w
  {
    if |items| > 0 {
      assert forall i :: 0 <= i < |items| - 1 ==> items[1..][i] == items[i + 1];
      NoWidthEntry(items[1..], w);
    }
  }

  /** With distinct keys and numeric width entries, the committed width is
      the one `WidthAfter` finds. */
  lemma {:induction false} WidthAfterIsEntry(items: Kwargs, w: real)
    requires DistinctKeys(items)
    requires forall e :: e in items && e.0 == TroughWidth ==> e.1.Num?
    ensures TroughWidth in AsMap(items) ==> AsMap(items)[TroughWidth] == Num(WidthAfter(items, w))
    ensures TroughWidth !in AsMap(items) ==> WidthAfter(items, w) == w
  {
    if |items| > 0 {
      var rest := items[1..];
      assert forall e :: e in rest ==> e in items;
      TailDistinct(items);
      WidthAfterIsEntry(rest, w);
      if items[0].0 == TroughWidth {
        assert items[0] in items;
      } else {
        if TroughWidth in AsMap(items) {
          var i :| 0 <= i < |items| && items[i].0 == TroughWidth;
          assert rest[i - 1] == items[i];
        }
        if TroughWidth in AsMap(rest) {
          var j :| 0 <= j < |rest| && rest[j].0 == TroughWidth;
          assert items[j + 1] == rest[j];
        }
      }
    }
  }

  /** A move that keeps the fraction for a width going from `w` to `x`,
      followed by one that keeps it for an unchanged width `w`, keeps it for
      `w` to `x`. */
  lemma FractionThenStill(a: Slider, b: Slider, c: Slider, w: real, x: real)
    requires w != 0.0
    requires KeepsFraction(a, b, w, x) && KeepsFraction(b, c, w, w)
    ensures KeepsFraction(a, c, w, x)
  {
    Cancel(TopPoint(c).x, TopPoint(b).x, w);
  }

  /** A move that keeps the top vertex where it is, followed by one that
      keeps the fraction for a width going from `w` to `x`, keeps it. */
  lemma StillThenFraction(a: Slider, b: Slider, c: Slider, w: real, x: real)
    requires w != 0.0
    requires KeepsFraction(a, b, w, w) && KeepsFraction(b, c, w, x)
    ensures KeepsFraction(a, c, w, x)
  {
    Cancel(TopPoint(b).x, TopPoint(a).x, w);
  }

  /** A non-zero factor cancels. */
  lemma Cancel(a: real, b: real, w: real)
    requires w != 0.0 && a * w == b * w
    ensures a == b
  {
    assert (a - b) * w == 0.0;
  }

  /** Binding a new variable reports the ratio to the variable stored until
      then, not to the new one; the new one is only committed afterwards. */
  lemma ConfigVariableWritesOldVariable(s: Scrollbar, bound: string, v: Value)
    requires Variable in s.options && s.options[Variable] == ControlVar(bound) && v != ControlVar(bound)
    requires WidthUsable(s.options)
    ensures var r := Config(s, [(Variable, v)]);
      && r.result.Success?
      && r.after.log == s.log + [Wrote(bound, TopX(s) / s.options[TroughWidth].n)]
      && r.after.options == s.options[Variable := v]
      && r.after.slider == s.slider
  {
    ConfigSingle(s, Variable, v);
  }

  /** The order of the entries is observable. A width entry before a new
      variable moves the slider first, and the report the variable triggers
      still divides by the old width, since nothing is committed until the
      end: the bound variable gets the new top x over the old width. */
  lemma ConfigWidthThenVariable(s: Scrollbar, bound: string, v: Value, w1: real, w2: real)
    requires TroughWidth in s.options && s.options[TroughWidth] == Num(w1) && w1 != 0.0 && w2 != w1
    requires Variable in s.options && s.options[Variable] == ControlVar(bound) && v != ControlVar(bound)
    ensures var r := Config(s, [(TroughWidth, Num(w2)), (Variable, v)]);
      && r.result.Success?
      && KeepsFraction(s.slider, r.after.slider, w1, w2)
      && r.after.log == s.log + [Wrote(bound, TopX(r.after) / w1)]
  {
    ConfigPair(s, TroughWidth, Num(w2), Variable, v);
    var widened := ConfigureOne(s, TroughWidth, Num(w2));
    var told := ConfigureOne(widened.after, Variable, v);
    assert told.after.slider == widened.after.slider;
  }

  /** The other order: binding the variable first reports the position
      before the width entry moves the slider. */
  lemma ConfigVariableThenWidth(s: Scrollbar, bound: string, v: Value, w1: real, w2: real)
    requires TroughWidth in s.options && s.options[TroughWidth] == Num(w1) && w1 != 0.0 && w2 != w1
    requires Variable in s.options && s.options[Variable] == ControlVar(bound) && v != ControlVar(bound)
    ensures var r := Config(s, [(Variable, v), (TroughWidth, Num(w2))]);
      && r.result.Success?
      && KeepsFraction(s.slider, r.after.slider, w1, w2)
      && r.after.log == s.log + [Wrote(bound, TopX(s) / w1)]
  {
    var first := ConfigureOne(s, Variable, v);
    assert first.result.Success? && first.after.slider == s.slider && first.after.options == s.options;
    assert first.after.log == s.log + [Wrote(bound, TopX(s) / w1)];
    var moved := ConfigureOne(first.after, TroughWidth, Num(w2));
    assert moved.result.Success? && moved.after.log == first.after.log;
    assert KeepsFraction(first.after.slider, moved.after.slider, w1, w2);
    ConfigPair(s, Variable, v, TroughWidth, Num(w2));
  }

  /** A two-entry `config` naming two different existing options: the first
      entry's effect, then the second's, then the commit. */
  lemma ConfigPair(s: Scrollbar, k1: string, v1: Value, k2: string, v2: Value)
    requires k1 in s.options && k2 in s.options && k1 != k2
    ensures var kw := [(k1, v1), (k2, v2)];
      var one := ConfigureOne(s, k1, v1);
      DistinctKeys(kw) &&
      Config(s, kw) ==
        if one.result.Failure? then one
        else
          var two := ConfigureOne(one.after, k2, v2);
          if two.result.Failure? then two
          else Outcome(two.after.(options := Commit(s.options, kw)), Success(()))
  {
    var kw := [(k1, v1), (k2, v2)];
    KnownAppend(kw[..1], kw[1..], s.options);
    assert kw == kw[..1] + kw[1..];
    assert Known(kw, s.options) == kw;
    var one := ConfigureOne(s, k1, v1);
    if one.result.Success? {
      assert ConfigureEach(s, kw) == ConfigureEach(one.after, kw[1..]);
      var two := ConfigureOne(one.after, k2, v2);
      assert kw[1..][1..] == [];
      assert ConfigureEach(one.after, kw[1..]) == if two.result.Failure? then two else ConfigureEach(two.after, []);
    }
  }

  /** When no variable was bound, binding one writes nothing at all: the new
      variable is not brought up to date. */
  lemma ConfigFirstVariableWritesNothing(s: Scrollbar, v: Value)
    requires Variable in s.options && s.options[Variable] == Nil && v != Nil
    requires WidthUsable(s.options)
    ensures var r := Config(s, [(Variable, v)]);
      && r.result.Success?
      && r.after.log == s.log
      && r.after.options == s.options[Variable := v]
  {
    ConfigSingle(s, Variable, v);
  }
}

=== FILE: widget.dfy ===
/** The slider logic of the custom scrollbar as a state machine: construction,
    position reporting, the left and right steps, jumping to a point, `cget`
    and `config`. Each operation maps a state to the next state and to what
    the Python method returns or raises. */
module Widget {
  import opened Wrappers
  import opened Geometry
  import opened Options

  /** An effect on the outside world, with the position ratio it carried:
      a call of the `command` callback, or a write to a control variable. */
  datatype Event = Called(command: string, ratio: real) | Wrote(variable: string, ratio: real)

  /** The widget: its options, the trough canvas's width in whole pixels (the
      right step clamps against it), the slider polygon, and every effect so
      far, oldest first. */
  datatype Scrollbar = Scrollbar(options: Options, canvasWidth: int, slider: Slider, log: seq<Event>)

  /** The state after an operation and what the operation returned or raised.
      An operation that raises keeps the effects it had before raising. */
  datatype Outcome<T> = Outcome(after: Scrollbar, result: Result<T, Error>)

  datatype Direction = Left | Right

  /** The x of the slider's top vertex, the reference for all position math. */
  function TopX(s: Scrollbar): real
  {
    TopPoint(s.slider).x
  }

  /** `qs` is `ps` moved rigidly: every vertex shifted by the same amount. */
  ghost predicate Translated(ps: Slider, qs: Slider)
  {
    forall i :: 0 <= i < 4 ==>
      qs[i].x - ps[i].x == qs[0].x - ps[0].x && qs[i].y - ps[i].y == qs[0].y - ps[0].y
  }

  /** Number of command calls in a log. */
  function Calls(log: seq<Event>): nat
  {
    if |log| == 0 then 0
    else Calls(log[..|log| - 1]) + (if log[|log| - 1].Called? then 1 else 0)
  }

  lemma {:induction false} CallsAppend(a: seq<Event>, b: seq<Event>)
    ensures Calls(a + b) == Calls(a) + Calls(b)
  {
    if |b| > 0 {
      assert (a + b)[..|a + b| - 1] == a + b[..|b| - 1];
      assert (a + b)[|a + b| - 1] == b[|b| - 1];
      CallsAppend(a, b[..|b| - 1]);
    } else {
      assert a + b == a;
    }
  }

  lemma {:induction false} NoCallsInWrites(log: seq<Event>)
    requires forall i :: 0 <= i < |log| ==> log[i].Wrote?
    ensures Calls(log) == 0
  {
    if |log| > 0 {
      NoCallsInWrites(log[..|log| - 1]);
    }
  }

  // ---------------------------------------------------------------------------
  // Construction

  /** The diamond for a trough of height `h`: top, right, bottom and left
      vertices. */
  function Diamond(h: real): Slider
  {
    [Point(0.0, 0.0), Point(h / 4.0, h / 2.0), Point(0.0, h), Point(-h / 4.0, h / 2.0)]
  }

  /** The top vertex of the diamond is its first vertex, or for a negative
      height its third. */
  lemma DiamondTop(h: real)
    ensures TopPoint(Diamond(h)) == Point(0.0, if h < 0.0 then h else 0.0)
  {
    TopIndexUnique(Diamond(h), if h < 0.0 then 2 else 0);
  }

  /** The diamond spans `|h|/4` to each side of the y-axis. */
  lemma DiamondExtremes(h: real)
    ensures var q := if h < 0.0 then -h / 4.0 else h / 4.0;
      Min(Xs(Diamond(h))) == -q && Max(Xs(Diamond(h))) == q
  {
    var xs := Xs(Diamond(h));
    var q := if h < 0.0 then -h / 4.0 else h / 4.0;
    assert xs[0] == 0.0 && xs[2] == 0.0 && xs[1] == h / 4.0 && xs[3] == -h / 4.0;
    assert -q in xs && q in xs;
    MinUnique(xs, -q);
    MaxUnique(xs, q);
  }

  /** `_create_slider`: the slider a new widget starts with. Its top vertex
      is at x = 0 (at y = 0, or at y = h for a negative height), it is
      centred on its top vertex, and it is `|h|/2` wide. */
  function InitialSlider(h: real): (ps: Slider)
    ensures TopPoint(ps) == Point(0.0, if h < 0.0 then h else 0.0)
    ensures Centred(ps)
    ensures Max(Xs(ps)) - Min(Xs(ps)) == (if h < 0.0 then -h / 2.0 else h / 2.0)
  {
    DiamondTop(h);
    DiamondExtremes(h);
    Diamond(h)
  }

  /** `CustomScrollbar(master, **overrides)`. The options are the defaults
      overridden by the caller's, and then `resolution` is overwritten with 1%
      of the width, whatever the caller passed. A width that is not a number
      raises TypeError at that multiplication. A height that is not a number
      raises TypeError too; Tk's canvas creation, which would already reject
      most such heights, is not modelled. */
  function New(overrides: Options): (r: Result<Scrollbar, Error>)
    ensures r.Success? <==>
      && (TroughWidth !in overrides || overrides[TroughWidth].Num?)
      && (TroughHeight !in overrides || overrides[TroughHeight].Num?)
    ensures r.Failure? ==> r.error == TypeError
  {
    var merged := Defaults + overrides;
    var w := merged[TroughWidth];
    if !w.Num? then Failure(TypeError)
    else
      var opts := merged[Resolution := Num(w.n * 0.01)];
      var h := opts[TroughHeight];
      if !h.Num? then Failure(TypeError)
      else Success(Scrollbar(opts, Pixels(w.n), InitialSlider(h.n), []))
  }

  // ---------------------------------------------------------------------------
  // Reporting the position

  /** The stored width can serve as a divisor: present, a number, not zero. */
  predicate WidthUsable(opts: Options)
  {
    TroughWidth in opts && opts[TroughWidth].Num? && opts[TroughWidth].n != 0.0
  }

  /** The stored variable is present and either false (skipped) or a control
      variable (written). */
  predicate VariableUsable(opts: Options)
  {
    Variable in opts && (!Truthy(opts[Variable]) || opts[Variable].ControlVar?)
  }

  /** Reporting the position goes through: the command is callable and the
      ratio can be computed and stored. */
  predicate Notifiable(opts: Options)
  {
    && Command in opts && opts[Command].Callable?
    && WidthUsable(opts) && VariableUsable(opts)
  }

  /** The write to the bound variable that reporting `ratio` makes, if any. */
  function Writes(opts: Options, ratio: real): seq<Event>
    requires Variable in opts
  {
    if opts[Variable].ControlVar? then [Wrote(opts[Variable].name, ratio)] else []
  }

  /** `_expose_slider_position_ratio`: the ratio is the top vertex's x over
      the stored trough width, written to the bound variable when there is one. */
  function Expose(s: Scrollbar): (r: Outcome<real>)
    ensures r.after.options == s.options && r.after.canvasWidth == s.canvasWidth && r.after.slider == s.slider
    ensures r.result.Success? <==> WidthUsable(s.options) && VariableUsable(s.options)
    ensures r.result.Success? ==> r.result.value * s.options[TroughWidth].n == TopX(s)
    ensures r.result.Success? ==> r.after.log == s.log + Writes(s.options, r.result.value)
    ensures r.result.Failure? ==> r.after == s
    ensures !WidthUsable(s.options) ==> r.result == Failure(
      if TroughWidth !in s.options then ValueError(TroughWidth)
      else if !s.options[TroughWidth].Num? then TypeError
      else ZeroDivisionError)
    ensures WidthUsable(s.options) && !VariableUsable(s.options) ==> r.result == Failure(
      if Variable !in s.options then ValueError(Variable) else AttributeError)
  {
    var x := TopX(s);
    match Lookup(s.options, TroughWidth)
    case Failure(e) => Outcome(s, Failure(e))
    case Success(w) =>
      if !w.Num? then Outcome(s, Failure(TypeError))
      else if w.n == 0.0 then Outcome(s, Failure(ZeroDivisionError))
      else
        var ratio := x / w.n;
        match Lookup(s.options, Variable)
        case Failure(e) => Outcome(s, Failure(e))
        case Success(v) =>
          if !Truthy(v) then Outcome(s, Success(ratio))
          else if v.ControlVar? then Outcome(s.(log := s.log + [Wrote(v.name, ratio)]), Success(ratio))
          else Outcome(s, Failure(AttributeError))
  }

  /** `_exec_command`: report the position, then call the command with it. */
  function ExecCommand(s: Scrollbar): (r: Outcome<()>)
    ensures r.after.options == s.options && r.after.canvasWidth == s.canvasWidth && r.after.slider == s.slider
    ensures r.result.Success? <==> Notifiable(s.options)
    ensures Notifiable(s.options) ==>
      var ratio := TopX(s) / s.options[TroughWidth].n;
      r.after.log == s.log + Writes(s.options, ratio) + [Called(s.options[Command].name, ratio)]
    ensures !Notifiable(s.options) ==>
      || r.after.log == s.log
      || (WidthUsable(s.options) && VariableUsable(s.options) &&
          r.after.log == s.log + Writes(s.options, TopX(s) / s.options[TroughWidth].n))
    ensures Command !in s.options ==> r == Outcome(s, Failure(ValueError(Command)))
    ensures Command in s.options && !(WidthUsable(s.options) && VariableUsable(s.options)) ==>
      r.after == s && r.result == Failure(Expose(s).result.error)
    ensures Command in s.options && WidthUsable(s.options) && VariableUsable(s.options) &&
            !s.options[Command].Callable? ==>
      r.after.log == s.log + Writes(s.options, TopX(s) / s.options[TroughWidth].n) && r.result == Failure(TypeError)
  {
    match Lookup(s.options, Command)
    case Failure(e) => Outcome(s, Failure(e))
    case Success(cmd) =>
      var e := Expose(s);
      if e.result.Failure? then Outcome(e.after, Failure(e.result.error))
      else if cmd.Callable? then Outcome(e.after.(log := e.after.log + [Called(cmd.name, e.result.value)]), Success(()))
      else Outcome(e.after, Failure(TypeError))
  }

  /** Every report calls the command exactly once when it goes through, and
      never when it raises. */
  lemma {:induction false} ExecCommandCallsOnce(s: Scrollbar)
    ensures Calls(ExecCommand(s).after.log) == Calls(s.log) + (if ExecCommand(s).result.Success? then 1 else 0)
  {
    var r := ExecCommand(s);
    if Notifiable(s.options) {
      var ratio := TopX(s) / s.options[TroughWidth].n;
      CallsAppend(s.log, Writes(s.options, ratio) + [Called(s.options[Command].name, ratio)]);
      CallsAppend(Writes(s.options, ratio), [Called(s.options[Command].name, ratio)]);
      assert Calls(Writes(s.options, ratio)) == 0;
      assert s.log + Writes(s.options, ratio) + [Called(s.options[Command].name, ratio)]
          == s.log + (Writes(s.options, ratio) + [Called(s.options[Command].name, ratio)]);
    } else if r.after.log != s.log {
      var ratio := TopX(s) / s.options[TroughWidth].n;
      CallsAppend(s.log, Writes(s.options, ratio));
      assert Calls(Writes(s.options, ratio)) == 0;
    }
  }

  // ---------------------------------------------------------------------------
  // Moving the slider

  /** A horizontal move by `dx` is rigid, keeps every height, and moves the
      top vertex by `dx`. */
  lemma HorizontalShift(ps: Slider, dx: real)
    ensures var qs := Translate(ps, dx, 0.0);
      && |qs| == 4
      && TopPoint(qs) == Point(TopPoint(ps).x + dx, TopPoint(ps).y)
      && Translated(ps, qs)
      && forall i :: 0 <= i < 4 ==> qs[i].y == ps[i].y
  {
    TopUnderTranslate(ps, dx, 0.0);
  }

  /** Where the top vertex ends after moving `dist` from `x` toward
      `direction` on a canvas `w` wide: a move that would pass 0 (left) or
      `w` (right) stops exactly there. */
  function Reach(x: real, direction: Direction, dist: real, w: real): real
  {
    match direction
    case Left => if x - dist >= 0.0 then x - dist else 0.0
    case Right => if x + dist <= w then x + dist else w
  }

  /** Where a step of `d` toward `direction` puts the slider on a canvas `w`
      wide: a step that would pass 0 (left) or `w` (right) stops exactly there. */
  function Stepped(ps: Slider, direction: Direction, d: real, w: real): (qs: Slider)
    ensures direction == Left ==>
      TopPoint(qs).x == (if TopPoint(ps).x - d >= 0.0 then TopPoint(ps).x - d else 0.0)
    ensures direction == Right ==>
      TopPoint(qs).x == (if TopPoint(ps).x + d <= w then TopPoint(ps).x + d else w)
    ensures Translated(ps, qs)
    ensures forall i :: 0 <= i < 4 ==> qs[i].y == ps[i].y
  {
    var x := TopPoint(ps).x;
    var dx := match direction
      case Left => if x - d >= 0.0 then -d else -x
      case Right => if x + d <= w then d else w - x;
    HorizontalShift(ps, dx);
    Translate(ps, dx, 0.0)
  }

  /** `_move_slider`: step the slider by `resolution`, then run the command
      in every case, even when the slider was already at the edge. The
      options and the canvas stay; the top vertex moves by the step,
      stopping at 0 or at the canvas width; the command is called once
      exactly when the step is a number and the report goes through. */
  function MoveSlider(s: Scrollbar, direction: Direction, resolution: Value): (r: Outcome<()>)
    ensures r.after.options == s.options && r.after.canvasWidth == s.canvasWidth
    ensures r.result.Success? <==> resolution.Num? && Notifiable(s.options)
    ensures Calls(r.after.log) == Calls(s.log) + (if r.result.Success? then 1 else 0)
    ensures !resolution.Num? ==> r == Outcome(s, Failure(TypeError))
    ensures resolution.Num? ==> TopX(r.after) == Reach(TopX(s), direction, resolution.n, s.canvasWidth as real)
    ensures resolution.Num? ==> r.after.slider == Stepped(s.slider, direction, resolution.n, s.canvasWidth as real)
    ensures resolution.Num? ==> r == ExecCommand(s.(slider := r.after.slider))
  {
    if !resolution.Num? then Outcome(s, Failure(TypeError))
    else
      var moved := s.(slider := Stepped(s.slider, direction, resolution.n, s.canvasWidth as real));
      ExecCommandCallsOnce(moved);
      ExecCommand(moved)
  }

  /** The step size is present and a number. */
  predicate HasStep(s: Scrollbar)
  {
    Resolution in s.options && s.options[Resolution].Num?
  }

  /** A press of the left or right button: a step by the stored resolution.
      It keeps the options and the canvas, moves the top vertex by the step
      toward the button's side, stopping at the edge, and calls the command
      once exactly when the step is a number and the report goes through; a
      missing resolution raises ValueError with nothing changed. */
  function Step(s: Scrollbar, direction: Direction): (r: Outcome<()>)
    ensures r.after.options == s.options && r.after.canvasWidth == s.canvasWidth
    ensures r.result.Success? <==> HasStep(s) && Notifiable(s.options)
    ensures Calls(r.after.log) == Calls(s.log) + (if r.result.Success? then 1 else 0)
    ensures HasStep(s) ==> TopX(r.after) == Reach(TopX(s), direction, s.options[Resolution].n, s.canvasWidth as real)
    ensures Resolution !in s.options ==> r == Outcome(s, Failure(ValueError(Resolution)))
    ensures Resolution in s.options ==> r == MoveSlider(s, direction, s.options[Resolution])
  {
    match Lookup(s.options, Resolution)
    case Failure(e) => Outcome(s, Failure(e))
    case Success(res) => MoveSlider(s, direction, res)
  }

  /** The horizontal extent of the slider, from the x coordinates the widget
      reads off its coordinate list: its rightmost x less its leftmost x. */
  function SliderLength(ps: Slider): (len: real)
    ensures len == Max(Xs(ps)) - Min(Xs(ps))
    ensures len >= 0.0
    ensures forall i, j :: 0 <= i < 4 && 0 <= j < 4 ==> ps[i].x - ps[j].x <= len
  {
    var xs := SliderXs(ps);
    Max(xs) - Min(xs)
  }

  /** Where a jump to `x` puts the slider: its left extent at
      `int(x - length/2)` and its top at 0, with no clamping to the trough. */
  function Jumped(ps: Slider, x: real): (qs: Slider)
    ensures Min(Xs(qs)) == Trunc(x - SliderLength(ps) / 2.0) as real
    ensures Min(Ys(qs)) == 0.0
    ensures Translated(ps, qs)
  {
    MoveTo(ps, Trunc(x - SliderLength(ps) / 2.0) as real, 0.0)
  }

  /** `move_slider_to(x)`: jump the slider to `x`, then run the command.
      The options and the canvas stay; the slider's left extent lands at
      `int(x - length/2)` and its top at y = 0; the command is called once
      exactly when `x` is a number and the report goes through. */
  function MoveSliderTo(s: Scrollbar, x: Value): (r: Outcome<()>)
    ensures r.after.options == s.options && r.after.canvasWidth == s.canvasWidth
    ensures r.result.Success? <==> x.Num? && Notifiable(s.options)
    ensures Calls(r.after.log) == Calls(s.log) + (if r.result.Success? then 1 else 0)
    ensures !x.Num? ==> r == Outcome(s, Failure(TypeError))
    ensures x.Num? ==> Min(Xs(r.after.slider)) == Trunc(x.n - SliderLength(s.slider) / 2.0) as real
    ensures x.Num? ==> Min(Ys(r.after.slider)) == 0.0
    ensures x.Num? ==> r.after.slider == Jumped(s.slider, x.n)
    ensures x.Num? ==> r == ExecCommand(s.(slider := r.after.slider))
  {
    if !x.Num? then Outcome(s, Failure(TypeError))
    else
      var moved := s.(slider := Jumped(s.slider, x.n));
      ExecCommandCallsOnce(moved);
      ExecCommand(moved)
  }

  // ---------------------------------------------------------------------------
  // Reading and changing options

  /** `cget(name)` on the widget. */
  function Get(s: Scrollbar, name: string): (r: Result<Answer, Error>)
    ensures name == "" ==> r == Success(AllOptions(s.options))
    ensures name != "" ==> (r.Success? <==> name in s.options)
    ensures name != "" && name in s.options ==> r == Success(OptionValue(s.options[name]))
    ensures name != "" && name !in s.options ==> r == Failure(ValueError(name))
  {
    Cget(s.options, name)
  }

  /** The keyword arguments of one `config` call, in the caller's order. */
  type Kwargs = seq<(string, Value)>

  /** No key occurs twice, as in a Python dict. */
  ghost predicate DistinctKeys(kw: Kwargs)
  {
    forall i, j :: 0 <= i < j < |kw| ==> kw[i].0 != kw[j].0
  }

  /** The dict the keyword arguments form. */
  function AsMap(kw: Kwargs): (m: map<string, Value>)
    ensures forall k :: k in m <==> exists i :: 0 <= i < |kw| && kw[i].0 == k
    ensures DistinctKeys(kw) ==> forall i :: 0 <= i < |kw| ==> kw[i].0 in m && m[kw[i].0] == kw[i].1
  {
    if |kw| == 0 then map[]
    else
      var rest := AsMap(kw[..|kw| - 1]);
      assert forall i :: 0 <= i < |kw| - 1 ==> kw[..|kw| - 1][i] == kw[i];
      rest[kw[|kw| - 1].0 := kw[|kw| - 1].1]
  }

  /** The entries whose key names an existing option, in order: a single
      entry is kept or dropped, and `Properties.KnownAppend` shows that the
      filter distributes over concatenation, so the kept entries keep their
      relative order. */
  function Known(kw: Kwargs, opts: Options): (r: Kwargs)
    ensures forall e :: e in r <==> e in kw && e.0 in opts
    ensures |kw| == 1 ==> r == (if kw[0].0 in opts then kw else [])
  {
    if |kw| == 0 then []
    else (if kw[0].0 in opts then [kw[0]] else []) + Known(kw[1..], opts)
  }

  /** How far `config` moves the slider when the trough width goes from
      `from` to `to` while the top vertex is at `x`: `(to/from - 1) * x`,
      which scales `x` by `to/from`. */
  function WidthShift(x: real, from: real, to: real): (dx: real)
    requires from != 0.0
    ensures (x + dx) * from == x * to
  {
    var q := to / from;
    assert q * from == to;
    assert (q * x) * from == x * (q * from);
    (q - 1.0) * x
  }

  /** The top vertex of `qs` is at the same height as that of `ps`, and its x
      is that of `ps` scaled by `to/from`: the top keeps its fraction of a
      trough whose width goes from `from` to `to`. */
  ghost predicate KeepsFraction(ps: Slider, qs: Slider, from: real, to: real)
  {
    TopPoint(qs).x * from == TopPoint(ps).x * to && TopPoint(qs).y == TopPoint(ps).y
  }

  /** The slider moved horizontally so that its top's x is scaled by
      `to/from`. */
  function Stretch(ps: Slider, from: real, to: real): (qs: Slider)
    requires from != 0.0
    ensures KeepsFraction(ps, qs, from, to)
    ensures Translated(ps, qs)
    ensures forall i :: 0 <= i < 4 ==> qs[i].y == ps[i].y
  {
    var x := TopPoint(ps).x;
    var dx := WidthShift(x, from, to);
    HorizontalShift(ps, dx);
    Translate(ps, dx, 0.0)
  }

  /** The effect of a new trough width: the canvas takes the new width, then
      the slider moves so its top keeps its fraction of the trough. */
  function Rewidth(s: Scrollbar, v: Value): (r: Outcome<()>)
    requires TroughWidth in s.options
    ensures r.after.options == s.options && r.after.log == s.log
    ensures r.result.Success? <==> v.Num? && WidthUsable(s.options)
    ensures v.Num? ==> r.after.canvasWidth == Pixels(v.n)
    ensures !v.Num? ==> r == Outcome(s, Failure(TypeError))
    ensures r.result.Success? ==> r.after.slider == Stretch(s.slider, s.options[TroughWidth].n, v.n)
    ensures r.result.Success? ==> KeepsFraction(s.slider, r.after.slider, s.options[TroughWidth].n, v.n)
    ensures r.result.Failure? ==> r.after.slider == s.slider
  {
    if !v.Num? then Outcome(s, Failure(TypeError))
    else if !s.options[TroughWidth].Num? then Outcome(s.(canvasWidth := Pixels(v.n)), Failure(TypeError))
    else if s.options[TroughWidth].n == 0.0 then Outcome(s.(canvasWidth := Pixels(v.n)), Failure(ZeroDivisionError))
    else
      var w := s.options[TroughWidth].n;
      Outcome(s.(canvasWidth := Pixels(v.n), slider := Stretch(s.slider, w, v.n)), Success(()))
  }

  /** The effect of a new trough height: the slider scales by new/old about
      its top vertex. */
  function Reheight(s: Scrollbar, v: Value): (r: Outcome<()>)
    requires TroughHeight in s.options
    ensures r.after.options == s.options && r.after.log == s.log && r.after.canvasWidth == s.canvasWidth
    ensures r.result.Success? <==> v.Num? && s.options[TroughHeight].Num? && s.options[TroughHeight].n != 0.0
    ensures r.result.Failure? ==> r.after == s
    ensures r.result.Success? ==>
      r.after.slider == Scale(s.slider, TopPoint(s.slider), v.n / s.options[TroughHeight].n)
    ensures r.result.Success? && v.n / s.options[TroughHeight].n >= 0.0 ==>
      TopPoint(r.after.slider) == TopPoint(s.slider)
  {
    if !v.Num? then Outcome(s, Failure(TypeError))
    else
      var prior := s.options[TroughHeight];
      if !prior.Num? then Outcome(s, Failure(TypeError))
      else if prior.n == 0.0 then Outcome(s, Failure(ZeroDivisionError))
      else
        var ratio := v.n / prior.n;
        var scaled := Scale(s.slider, TopPoint(s.slider), ratio);
        TopUnderScale(s.slider, ratio);
        Outcome(s.(slider := scaled), Success(()))
  }

  /** One entry of a `config` call, before anything is committed. Nothing
      happens unless the value differs from the stored one. A new variable
      triggers a report of the position, which goes to the variable still
      stored. A new width resizes the canvas and moves the slider so that
      its top keeps its fraction of the trough; a new height scales the
      slider about its top vertex. Colours only repaint and other options
      only get stored, at the commit. */
  function ConfigureOne(s: Scrollbar, k: string, v: Value): (r: Outcome<()>)
    requires k in s.options
    ensures r.after.options == s.options
    ensures v == s.options[k] ==> r == Outcome(s, Success(()))
    ensures k != Variable && k != TroughWidth && k != TroughHeight ==> r == Outcome(s, Success(()))
    ensures k == Variable && v != s.options[k] ==>
      r.after.log == s.log + (if WidthUsable(s.options) && VariableUsable(s.options)
                              then Writes(s.options, TopX(s) / s.options[TroughWidth].n) else [])
    ensures k != Variable ==> r.after.log == s.log
    ensures k == Variable ==> r.after.slider == s.slider && r.after.canvasWidth == s.canvasWidth
    ensures k == Variable && v != s.options[k] ==>
      (r.result.Success? <==> WidthUsable(s.options) && VariableUsable(s.options))
    ensures k == TroughWidth && v != s.options[k] ==> (r.result.Success? <==> v.Num? && WidthUsable(s.options))
    ensures k == TroughWidth && v != s.options[k] && v.Num? && WidthUsable(s.options) ==>
      KeepsFraction(s.slider, r.after.slider, s.options[TroughWidth].n, v.n) && r.after.canvasWidth == Pixels(v.n)
    ensures k != TroughWidth ==> r.after.canvasWidth == s.canvasWidth
    ensures k == TroughHeight && v != s.options[k] ==>
      (r.result.Success? <==> v.Num? && s.options[k].Num? && s.options[k].n != 0.0)
    ensures k == TroughHeight && r.result.Success? && v.Num? && s.options[k].Num? && s.options[k].n != 0.0 &&
            v.n / s.options[k].n >= 0.0 ==>
      TopPoint(r.after.slider) == TopPoint(s.slider)
  {
    if v == s.options[k] then Outcome(s, Success(()))
    else if k == Variable then
      var e := Expose(s);
      if e.result.Failure? then Outcome(e.after, Failure(e.result.error))
      else
        assert e.result.value == TopX(s) / s.options[TroughWidth].n;
        Outcome(e.after, Success(()))
    else if k == TroughWidth then Rewidth(s, v)
    else if k == TroughHeight then Reheight(s, v)
    else Outcome(s, Success(()))
  }

  /** The entries of a `config` call in order, stopping at the first one
      that raises. */
  function ConfigureEach(s: Scrollbar, items: Kwargs): (r: Outcome<()>)
    requires forall e :: e in items ==> e.0 in s.options
    ensures r.after.options == s.options
    ensures |s.log| <= |r.after.log| && r.after.log[..|s.log|] == s.log
    ensures forall i :: |s.log| <= i < |r.after.log| ==> r.after.log[i].Wrote?
    decreases |items|
  {
    if |items| == 0 then Outcome(s, Success(()))
    else
      var first := ConfigureOne(s, items[0].0, items[0].1);
      if first.result.Failure? then first
      else ConfigureEach(first.after, items[1..])
  }

  /** `options.update(valid_options)`: the entries naming existing options
      replace their values; no option is added. */
  function Commit(opts: Options, kw: Kwargs): (r: Options)
    ensures r.Keys == opts.Keys
    ensures forall k :: k in opts ==> r[k] == (if k in AsMap(kw) then AsMap(kw)[k] else opts[k])
  {
    var kwMap := AsMap(kw);
    opts + map k | k in kwMap && k in opts :: kwMap[k]
  }

  /** `config(**kw)`: entries naming no existing option are dropped; the rest
      are processed in order and then all committed together. `resolution`
      is never recomputed and the command is never called. */
  function Config(s: Scrollbar, kw: Kwargs): (r: Outcome<()>)
    requires DistinctKeys(kw)
    ensures r.after.options.Keys == s.options.Keys
    ensures r.result.Success? ==> r.after.options == Commit(s.options, kw)
    ensures r.result.Failure? ==> r.after.options == s.options
    ensures |s.log| <= |r.after.log| && r.after.log[..|s.log|] == s.log
    ensures forall i :: |s.log| <= i < |r.after.log| ==> r.after.log[i].Wrote?
    ensures (forall e :: e in kw ==> e.0 !in s.options) ==> r == Outcome(s, Success(()))
  {
    var done := ConfigureEach(s, Known(kw, s.options));
    if done.result.Failure? then done
    else Outcome(done.after.(options := Commit(s.options, kw)), Success(()))
  }
}

=== FILE: wrappers.dfy ===
/** The result of an operation: a value, or the exception the Python code
    would raise. */
module Wrappers {

  datatype Result<+T, +E> = Success(value: T) | Failure(error: E)
}
